=== FILE: README.md ===
# Tenant scoping and natural ordering, modelled in Dafny

This project models the part of NetBox that every tenant-scoped object
type shares:

- **Tenants and tenant groups** (`tenancy/models.py`). A tenant group
  names Django auth groups and users that may see it. A tenant belongs to
  at most one group. The model covers:
  - the two query sets' `filter_access`;
  - the unique and length-limited columns;
  - `SET_NULL` on group deletion;
  - the default orderings;
  - the two managers' `filter_access`.
- **The query-set helpers** (`utilities/sql.py`):
  - `ObjectFilterQuerySet.filter_access` scopes any object by its tenant's
    group;
  - `NaturalOrderByQuerySet.natural_order_by` orders by three generated
    keys of a text column. The keys are the leading integer, the middle
    text and the trailing integer;
  - `NullsFirstSQLCompiler` / `NullsFirstQuery` / `NullsFirstQuerySet`
    rewrite every `ORDER BY` term to `NULLS FIRST`.
- **The managers** (`utilities/managers.py`) that start those query sets
  from a whole table.
- **The middleware** (`utilities/middleware.py`):
  - the `LOGIN_REQUIRED` login wall;
  - the `API-Version` header;
  - the per-thread user registry of `GlobalUserMiddleware`.

The modules are:

- `Wrappers`: `Option` and `Result`.
- `Seqs`: an order-keeping filter, which stands for a query set's `.filter`.
- `Ordering`: the engine's `ORDER BY` over tuples of keys. A key is an
  integer, a text or NULL. Where NULL sorts is an explicit parameter. The
  module holds an insertion sort with permutation and sortedness proofs.
- `NaturalKeys`: the three natural keys, computed by a digit-run scan.
- `Tenancy`, `Sql`, `Managers`, `Middleware`: one module per source file.

Decisions taken while modelling:

- **Principals.** A user is a `Principal`: a superuser flag plus either
  an account (its id and the auth groups it belongs to) or `Unresolvable`.
  `Unresolvable` stands for the anonymous user. The relational lookup
  raises `TypeError` for it, and the query sets turn that into `none()`.
- **Ordering.** `natural_order_by` does not use `NullsFirstQuery`, so it
  gets PostgreSQL's default for ascending terms, NULLS LAST. Ties are left
  to the engine: any sorted permutation is accepted.
- **Code over expectation.** In two places the code behaves differently
  from what the feature's name suggests, and the model follows the code:
  - Absent natural keys sort last, not first: the NULLS FIRST query set
    is not involved.
  - A listing of "Rack", "Rack 1a", "Rack 2" and "Rack 10" orders as
    "Rack", "Rack 2", "Rack 10", "Rack 1a". "Rack 1a" does not end in a
    digit, so it has no trailing integer. Its middle key is "Rack 1a",
    which sorts after the middle key "Rack " (`Sql.RackExample`).
- **Settings and the handler.** Settings (`LOGIN_REQUIRED`, `LOGIN_URL`,
  the API root from `reverse('api-root')`, `REST_FRAMEWORK_VERSION`) are
  parameters. The downstream handler is a function parameter. The calling
  thread is an explicit `ThreadId`.

## Model

| member | source | states |
|---|---|---|
| Tenancy.TenantGroupFilterAccess | netbox/tenancy/models.py:14-24 | a superuser gets the query set unchanged; otherwise a group is kept iff the user is among its access users or in one of its access groups; an anonymous user gets nothing; nothing is added |
| Tenancy.TenantFilterAccess | netbox/tenancy/models.py:57-67 | a tenant is kept iff the user is a superuser or may see the tenant's group; a tenant without a group is shown to superusers only; an anonymous non-superuser gets nothing |
| Tenancy.TenantGroupFilterAccessIdempotent | netbox/tenancy/models.py:14-24 | scoping groups twice is scoping them once |
| Tenancy.TenantFilterAccessIdempotent | netbox/tenancy/models.py:57-67 | scoping tenants twice is scoping them once |
| Tenancy.TenantVisibleThroughGroup | netbox/tenancy/models.py:57-67 | a grouped tenant survives tenant scoping exactly when its group survives group scoping |
| Tenancy.GrantingAccessOnlyWidens | netbox/tenancy/models.py:42-43 | adding users or auth groups to a group's access lists never hides a tenant that was visible |
| Tenancy.AddTenantGroup | netbox/tenancy/models.py:40-43 | inserting a group succeeds iff the name fits in 50 characters, the slug fits in 50, and neither is taken; the error names the broken rule; on success the new row gets the next id and nothing else changes |
| Tenancy.AddTenant | netbox/tenancy/models.py:84-88 | inserting a tenant succeeds iff name ≤ 30, slug ≤ 50 and description ≤ 100 characters, name and slug are unused, and the group, if any, exists; the error names the broken rule; on success only the new row is added |
| Tenancy.AddTenantGroupKeepsValid | netbox/tenancy/models.py:40-41 | a valid store (unique names and slugs, lengths within limits, ids below the counter, existing group references) stays valid after a group insertion |
| Tenancy.AddTenantKeepsValid | netbox/tenancy/models.py:84-86 | a valid store stays valid after a tenant insertion |
| Tenancy.DeleteTenantGroup | netbox/tenancy/models.py:86 | deleting a group removes only that group; every tenant stays; tenants of the deleted group get a NULL group (`SET_NULL`) and keep every other field; all other tenants are untouched; neither id counter moves, so no id is reused |
| Tenancy.DeleteTenantGroupKeepsValid | netbox/tenancy/models.py:86 | `SET_NULL` keeps the store valid: no tenant is left pointing at a missing group |
| Tenancy.DeletedGroupHidesItsTenants | netbox/tenancy/models.py:57-67 | after its group is deleted, a tenant is visible to superusers only |
| Tenancy.TenantOrderKeyMeansTenantBefore | netbox/tenancy/models.py:96 | the default tenant sort key orders exactly as "by group name, tenants without a group last, then by name" |
| Tenancy.DefaultGroupOrder | netbox/tenancy/models.py:48 | the default group listing is a permutation of the rows, with names in ascending order |
| Tenancy.DefaultTenantOrder | netbox/tenancy/models.py:96 | the default tenant listing is a permutation of the rows in which each tenant comes before every later one by group name, then name |
| Tenancy.DefaultGroupOrderUnique | netbox/tenancy/models.py:40-48 | because group names are unique, any name-sorted permutation of the rows is the default listing |
| Tenancy.TenantManagerFilterAccessAsWritten | netbox/tenancy/models.py:74-75 | the manager method as written returns nothing |
| Tenancy.TenantGroupManagerFilterAccessAsWritten | netbox/tenancy/models.py:31-32 | the manager method as written returns nothing |
| Tenancy.TenantManagerFilterAccess | netbox/tenancy/models.py:74-75 | the corrected manager returns a query set holding exactly the tenants the user may see |
| Tenancy.TenantGroupManagerFilterAccess | netbox/tenancy/models.py:31-32 | the corrected manager returns a query set holding exactly the groups the user may see |
| Tenancy.GetTenantBySlug | netbox/tenancy/views.py:73-78 | `get_object_or_404`: no query set is an error; exactly one row with the slug is returned; no such row gives not-found; several give `MultipleObjectsReturned`; a result always has the slug and comes from the query set |
| Tenancy.TenantPageAsWrittenFails | netbox/tenancy/views.py:73-78 | with the manager as written the tenant page fails for every user and slug |
| Tenancy.TenantPageAsWrittenCounterexample | netbox/tenancy/models.py:74-75 | a superuser looking up an existing tenant fails as written and succeeds with the corrected manager |
| Tenancy.TenantPageFindsVisibleTenant | netbox/tenancy/views.py:73-78 | with the corrected manager and unique slugs, the page finds a tenant iff the user may see it |
| Sql.EntityFilterAccess | netbox/utilities/sql.py:37-47 | an object is kept iff the user is a superuser or the user is an access user or access-group member of the group of the object's tenant; a superuser gets the query set unchanged; an anonymous non-superuser gets nothing |
| Sql.EntityFilterAccessIdempotent | netbox/utilities/sql.py:37-47 | object scoping twice is scoping once |
| Sql.EntityVisibleIffTenantVisible | netbox/utilities/sql.py:42-43 | an object with a tenant is visible exactly when its tenant passes `TenantQuerySet.filter_access` |
| Sql.UntenantedEntityOnlyForSuperusers | netbox/utilities/sql.py:39-47 | an object without a tenant is visible iff the user is a superuser |
| Sql.FirstUnknown | netbox/utilities/sql.py:75-77 | finds no field iff every ordering field is a column, and otherwise names a field that is not one |
| Sql.NaturalOrderBy | netbox/utilities/sql.py:50-77 | no fields fails (`fields[-1]`); it succeeds iff there are fields and all are columns; the failure names an unknown field; a success is a permutation of the rows sorted by the plain fields and then the three natural keys of the last field, NULLS LAST |
| Sql.OnlyLastFieldIsNatural | netbox/utilities/sql.py:63-75 | rows that agree on all but the last field compare by the last field's natural keys alone |
| Sql.NumberedNamesCompare | netbox/utilities/sql.py:70-72 | two names with the same non-digit-ending stem and a number of at most nine digits compare as their numbers do ("Rack 2" < "Rack 10") |
| Sql.NumbersCompare | netbox/utilities/sql.py:70-72 | all-digit names of at most nine digits compare by value |
| Sql.ZeroPaddingTies | netbox/utilities/sql.py:70-72 | "007" and "7" have equal keys |
| Sql.NaturalOrderPlaces | netbox/utilities/sql.py:75-77 | in a natural ordering on one column, a row whose keys are strictly smaller comes first |
| Sql.ListingIsDetermined | netbox/utilities/sql.py:75-77 | when no two rows share a sort key, the only successful result is the sorted permutation given |
| Sql.RackExample | netbox/utilities/sql.py:70-77 | "Rack 2", "Rack 10", "Rack 1a", "Rack" order as "Rack", "Rack 2", "Rack 10", "Rack 1a" |
| Sql.NumberExample | netbox/utilities/sql.py:70-77 | "10", "2", "1" order as "1", "2", "10" |
| Sql.ScopeAfterOrder | netbox/utilities/sql.py:80-81 | on a `FilterNaturalOrderByQuerySet`, scoping an ordered listing keeps it sorted and yields the same multiset as ordering the scoped rows |
| Sql.ScopeAndOrderCommute | netbox/utilities/sql.py:80-81 | with pairwise different sort keys, scoping and natural ordering commute exactly |
| Sql.NullsFirstOrderBy | netbox/utilities/sql.py:9-13 | every `ORDER BY` term's SQL gets ` NULLS FIRST` appended (removing it gives the original back), so every term places NULLs first; an empty list stays empty; expression, parameters and alias flag are unchanged |
| Sql.NullsFirstQuerySetQuery | netbox/utilities/sql.py:32-34 | a given query is kept; without one, a `NullsFirstQuery` is made |
| Sql.CompiledOrderBy | netbox/utilities/sql.py:9-23 | a `NullsFirstQuery` compiles its terms exactly as `NullsFirstOrderBy` rewrites them; a plain query leaves the terms alone |
| Sql.NullsFirstQuerySetSortsNullsFirst | netbox/utilities/sql.py:26-34 | a new `NullsFirstQuerySet`, and a clone handed its query, compile every term with ` NULLS FIRST` appended |
| Sql.NullsFirstPutsNullRowsFirst | netbox/utilities/sql.py:27-29 | under NULLS FIRST, a row whose first key is NULL precedes every row whose first key is not |
| Sql.DefaultPutsNullRowsLast | netbox/utilities/sql.py:27-29 | under the engine default, such a row follows every row whose first key is not NULL |
| Sql.GetCompiler | netbox/utilities/sql.py:18-23 | fails iff neither alias nor connection is given, or a non-empty alias is unknown; a non-empty alias selects its registered connection; an empty or missing alias keeps the connection passed in |
| Sql.AliasOverridesConnection | netbox/utilities/sql.py:21-22 | with a known non-empty alias the connection argument does not matter |
| Sql.EmptyAliasGivesNoConnection | netbox/utilities/sql.py:19-23 | an empty alias with no connection is accepted and yields a compiler without a connection |
| NaturalKeys.RunEnd | netbox/utilities/sql.py:70 | the digit run starting at a position ends at the first non-digit |
| NaturalKeys.RunStart | netbox/utilities/sql.py:72 | the digit run ending at a position starts right after the last non-digit |
| NaturalKeys.LeadingInt | netbox/utilities/sql.py:70 | k1 `^(\d{1,9})` is absent iff the value is empty or starts with a non-digit |
| NaturalKeys.TrailingInt | netbox/utilities/sql.py:72 | k3 `(\d{1,9})$` is absent iff the value is empty or ends with a non-digit |
| NaturalKeys.LeadingDigitsKey | netbox/utilities/sql.py:70 | for any value that starts with a digit run, k1 is the value of the run's first nine digits at most, zero padding included ("007 Rack" gives 7, "1234567890ab" gives 123456789) |
| NaturalKeys.TrailingDigitsKey | netbox/utilities/sql.py:72 | for any value that ends with a digit run, k3 is the value of the run's last nine digits at most ("Rack 007" gives 7, "Rack 1234567890" gives 234567890) |
| NaturalKeys.IntegerKeysFit | netbox/utilities/sql.py:70-72 | both integer keys are below 10^9 however long the run, so the cast to `integer` is safe |
| NaturalKeys.SegmentIsSegmentation | netbox/utilities/sql.py:71 | the scan splits a value into leading digits, a middle that neither starts nor ends with a digit, and trailing digits, which concatenate back to the value |
| NaturalKeys.SegmentationUnique | netbox/utilities/sql.py:71 | that split is the only one with those properties, so k2 `^\d*(.*?)\d*$` is determined |
| NaturalKeys.MiddleStripsBothRuns | netbox/utilities/sql.py:71 | for a value that holds a non-digit, k2 is the value between its leading and trailing digit runs |
| NaturalKeys.AllDigitKeys | netbox/utilities/sql.py:70-72 | an all-digit value has an empty k2, k1 its first nine digits and k3 its last nine |
| NaturalKeys.ShortNumberKeys | netbox/utilities/sql.py:70-72 | a number of at most nine digits has k1 = k3 = its value |
| NaturalKeys.KeyOfNumberedName | netbox/utilities/sql.py:70-72 | a stem ending in a non-digit followed by a number has that number as k3 and the rest of the stem after its leading run as k2 |
| NaturalKeys.NumberedPrefixKey | netbox/utilities/sql.py:70 | a number of at most nine digits followed by text that does not start with a digit ("12ab", "1 Rack") has that number as k1 |
| NaturalKeys.NaturalColumns | netbox/utilities/sql.py:69-73 | three keys per value, k1 then k2 then k3; a NULL column gives three NULLs |
| NaturalKeys.Render | netbox/utilities/sql.py:70 | a number written in decimal is a non-empty digit string whose value is the number |
| Ordering.Sort | netbox/utilities/sql.py:77 | `order_by` returns a permutation of the rows, sorted by the key tuples |
| Ordering.SortedUnique | netbox/utilities/sql.py:77 | two sorted permutations of the same rows with pairwise different keys are equal |
| Ordering.KeysLeTotal | netbox/utilities/sql.py:75-77 | any two key tuples are comparable |
| Ordering.KeysLeTransitive | netbox/utilities/sql.py:75-77 | the tuple order is transitive |
| Ordering.KeysLeAntisymmetric | netbox/utilities/sql.py:75-77 | tuples that are ordered both ways are equal |
| Ordering.KeysLeAfterCommonPrefix | netbox/utilities/sql.py:75 | tuples that share the leading fields compare by what follows |
| Ordering.FilterKeepsSorted | netbox/utilities/sql.py:80-81 | filtering a sorted listing keeps it sorted |
| Seqs.FilterPermutation | netbox/utilities/sql.py:41-44 | filtering two permutations of the same rows yields permutations of each other |
| Managers.ManagerFilterAccess | netbox/utilities/managers.py:36-41 | the manager scopes the whole table: a row is kept iff the user may see it; a superuser gets every row |
| Managers.ManagerScopeFollowsTenants | netbox/utilities/managers.py:40-41 | a row is handed out iff the user is a superuser or its tenant passes tenant scoping |
| Managers.NaturalOrderByManagerOrder | netbox/utilities/managers.py:9-33 | fails iff there are no fields or one is unknown; on success a permutation of the whole table sorted by the manager's own column tuple `fields[0:-1] + (id1, id2, id3)` |
| Managers.ManagerKeyIsRowKey | netbox/utilities/managers.py:19-31 | the manager's column tuple gives every row the same key as the query set's natural ordering |
| Managers.FilterNaturalOrderByManagerOrder | netbox/utilities/managers.py:44-49 | delegating to the query set gives a sorted permutation of the table |
| Managers.NaturalOrderManagersAgree | netbox/utilities/managers.py:9-49 | the manager that builds its own ordering and the one that delegates to its query set order a table identically |
| Managers.ScopedListing | netbox/utilities/managers.py:40-49 | `filter_access(user).natural_order_by(...)` holds exactly the visible rows, sorted |
| Managers.ScopedListingEitherWay | netbox/utilities/managers.py:40-49 | ordering then scoping holds the same rows as scoping then ordering, and with distinct keys the same listing |
| Middleware.LoginRedirect | netbox/utilities/middleware.py:23-29 | a redirect is issued iff `LOGIN_REQUIRED`, the user is unauthenticated, the path is outside the API and is not the login page; its `next` parameter gives back the path |
| Middleware.NextOf | netbox/utilities/middleware.py:29 | a parsed `next` value rebuilds the location it came from |
| Middleware.NextOfLoginLocation | netbox/utilities/middleware.py:29 | the login location round-trips to the requested path |
| Middleware.LoginRequired | netbox/utilities/middleware.py:23-30 | answers with the redirect when there is one, and otherwise with whatever the next layer answers |
| Middleware.LoginWallPasses | netbox/utilities/middleware.py:24-28 | authenticated users, API paths, the login page and a disabled setting always reach the next layer |
| Middleware.NoWallByDefault | netbox/utilities/middleware.py:13 | with `LOGIN_REQUIRED` at its default of false, no request is redirected |
| Middleware.WithApiVersion | netbox/utilities/middleware.py:40-45 | responses under the API root carry the version under `API-Version`, read in any case; headers under other lower-cased names are unchanged; at most one header is added; non-API responses are unchanged |
| Middleware.SetHeader | netbox/utilities/middleware.py:44 | `response[name] = value` stores under the lower-cased name: a lookup in any case of that name gives the value, and every other header stays |
| Middleware.ApiVersionReplacesLowerCase | netbox/utilities/middleware.py:43-44 | an `api-version` header set by the handler is replaced by the version rather than kept beside it |
| Middleware.WithApiVersionIdempotent | netbox/utilities/middleware.py:43-44 | setting the header twice equals setting it once |
| Middleware.ApiVersion | netbox/utilities/middleware.py:40-45 | an error from the next layer passes through; a response is exactly the next layer's response with the header step applied, so non-API responses are untouched |
| Middleware.CurrentUser | netbox/utilities/middleware.py:54-60 | the thread's recorded user, or an anonymous non-superuser when none is recorded |
| Middleware.SetUser | netbox/utilities/middleware.py:62-64 | the thread now sees the given user; every other thread's entry is unchanged |
| Middleware.CleanThread | netbox/utilities/middleware.py:66-68 | the thread's entry is gone (no error when absent); other threads are unchanged |
| Middleware.SetThenClean | netbox/utilities/middleware.py:62-68 | setting and then cleaning restores the registry when the thread had no entry |
| Middleware.ProcessRequest | netbox/utilities/middleware.py:73-74 | records the request's user for this thread only, every other entry kept, and gives no early response |
| Middleware.ProcessResponse | netbox/utilities/middleware.py:76-78 | drops this thread's entry only and passes the response on unchanged |
| Middleware.ProcessException | netbox/utilities/middleware.py:80-82 | drops this thread's entry only and raises the same error again |
| Middleware.Call | netbox/utilities/middleware.py:84-89 | the next layer sees the request's user; after a response the registry is the original with this thread's entry removed; after an error the entry stays |
| Middleware.RaisingLayerLeavesUser | netbox/utilities/middleware.py:84-89 | an exception that escapes the framework's error-to-response conversion skips `process_response`, so the thread still sees that request's user afterwards |
| Middleware.Serve | netbox/utilities/middleware.py:80-89 | the registry's end state once a request is over, whichever of `process_response` or `process_exception` runs: the thread is cleared and other threads are untouched |
| Middleware.ServedThreadSeesNothing | netbox/utilities/middleware.py:54-89 | after a served request the thread's user is anonymous, and sees no scoped object and no tenant |

## Left out

- Views, forms, admin, `form_extensions` and `netbox/forms.py` are not part of this model. The exception is the one lookup the tenant page performs, `get_object_or_404(..., slug=...)`.
- PostgreSQL text collation is left out: text keys compare by code point.
- Unicode digits are left out: `\d` is taken to mean ASCII `0`-`9`.
- The regular-expression engine, `extra()`, `CAST` and the key alias strings are not modelled; the keys are computed by a scan.
- Descending fields, `-field` syntax and related-field lookups in `natural_order_by` are not modelled.
- The engine's choice among rows whose keys tie is not modelled: any sorted permutation is accepted.
- Duplicate rows that the OR-ed many-to-many joins in `filter_access` can produce are left out; scoping is modelled as an order-keeping filter.
- Lazy query set evaluation is left out for the same reason.
- `Tenancy.AddTenantGroup`, `Tenancy.AddTenant`: slug character validation (`SlugField`) is not modelled.
- `Tenancy.AddTenantGroup`, `Tenancy.AddTenant`: id sequence values consumed by failed inserts are not modelled; a failed insert leaves the counter unchanged.
- Tenant custom fields, `csv_headers`, `to_csv`, `get_absolute_url` and `__str__` carry no scoping or ordering rule.
- The Django `User` and `Group` tables are reduced to a user id and a set of auth group ids.
- `CustomAnonymous` comes from `extras.models`, which is not part of this model. It is the fixed principal `Anonymous`: not a superuser and not authenticated.
- Real threads are not modelled; `threading.current_thread()` is an explicit thread id.
- Django settings and `reverse('api-root')` are parameters; `BASE_PATH` is read but unused in the source.
- `Middleware.LoginRedirect`: the `next` value is appended unencoded, exactly as the source does; what a browser makes of reserved characters in it is not modelled.
- `Sql.PlacementOf` reads only the end of a term, so a term that already carried `NULLS LAST` and then gets ` NULLS FIRST` appended reads as NULLS FIRST; PostgreSQL rejects such SQL, and whether the base compiler emits it is not part of this model.
- `Sql.NaturalOrderBy`: every field before the natural one is modelled as a text column compared by code point. Integer, date and foreign-key fields are not represented, and a foreign key's ordering by the related model's `Meta.ordering` is not modelled for them.
- `Middleware.Lower` lower-cases ASCII letters only; header names outside ASCII are not modelled.
- `Sql.GetCompiler`: the compiler's own SQL generation beyond `ORDER BY` is not modelled.
- `Middleware.Serve`: Django's conversion of view exceptions into error responses and the position of `process_exception` inside the view call are not modelled; `Serve` states only the registry's end state, and its outcome is the next layer's.

## Findings

| source | as written | input that shows it | evidently intended | confidence | as-written member | corrected member |
|---|---|---|---|---|---|---|
| netbox/tenancy/models.py:74-75 (and 31-32) | `TenantManager.filter_access` calls the query set's `filter_access` and drops the result, so it returns `None`; `TenantView.get` (netbox/tenancy/views.py:73-78) passes that to `get_object_or_404` | a superuser requests the page of existing tenant "acme" | `return self.get_queryset().filter_access(user)`, so the page finds every tenant the user may see | high, not executed | Tenancy.TenantManagerFilterAccessAsWritten, Tenancy.TenantPageAsWrittenCounterexample | Tenancy.TenantManagerFilterAccess, Tenancy.TenantPageFindsVisibleTenant |

=== FILE: managers.dfy ===
/** The managers that hand out the shared query sets. A manager stands for
    a whole table: its query set starts from every row. */
module Managers {
  import opened Wrappers
  import opened Ordering
  import opened Tenancy
  import opened Sql
  import opened NaturalKeys

  /** A table: the text columns its model declares and its rows in storage
      order. */
  datatype Table = Table(schema: set<string>, rows: seq<Entity>)

  /** `ObjectFilterManager.filter_access` (and so that of
      `FilterNaturalOrderByManager`, which inherits it): scope the whole
      table. */
  function ManagerFilterAccess(st: Store, t: Table, p: Principal): (r: seq<Entity>)
    ensures p.isSuperuser ==> r == t.rows
    ensures forall e :: e in r <==> e in t.rows && MaySeeEntity(st, e, p)
    ensures multiset(r) <= multiset(t.rows)
    ensures !p.isSuperuser && p.identity.Unresolvable? ==> r == []
  {
    EntityFilterAccess(st, t.rows, p)
  }

  /** The manager scope agrees with the tenant scope: a row of the table is
      handed out exactly when the caller is a superuser or may see the
      row's tenant. */
  lemma ManagerScopeFollowsTenants(st: Store, t: Table, p: Principal, e: Entity)
    requires e in t.rows
    ensures e in ManagerFilterAccess(st, t, p) <==>
            p.isSuperuser
            || (e.tenant.Some? && e.tenant.value in st.tenants
                && st.tenants[e.tenant.value] in TenantFilterAccess(st.groups, [st.tenants[e.tenant.value]], p))
  {
  }

  /** One of the three columns `NaturalOrderByManager.natural_order_by`
      selects for its last field: `id1`, `id2` and `id3`. */
  datatype Part = LeadingPart | MiddlePart | TrailingPart

  /** A column of the manager's `ORDER BY`: a field as it is, or a selected
      natural part of one. */
  datatype OrderColumn = FieldColumn(field: string) | PartColumn(field: string, part: Part)

  /** `ordering = fields[0:-1] + (id1, id2, id3)`. */
  function ManagerOrdering(fields: seq<string>): (r: seq<OrderColumn>)
    requires |fields| > 0
    ensures |r| == |fields| + 2
  {
    var last := fields[|fields| - 1];
    seq(|fields| - 1, i requires 0 <= i < |fields| - 1 => FieldColumn(fields[i]))
      + [PartColumn(last, LeadingPart), PartColumn(last, MiddlePart), PartColumn(last, TrailingPart)]
  }

  /** The value a row has in one `ORDER BY` column: the three selected
      expressions cast the leading digits, strip both runs, and cast the
      trailing digits. */
  function ColumnKey(e: Entity, c: OrderColumn): Key
  {
    match c
    case FieldColumn(f) => PlainKey(ColumnValue(e, f))
    case PartColumn(f, part) =>
      match ColumnValue(e, f)
      case None => Null
      case Some(s) =>
        match part
        case LeadingPart => IntOrNull(LeadingInt(s))
        case MiddlePart => Str(Middle(s))
        case TrailingPart => IntOrNull(TrailingInt(s))
  }

  /** The manager's sort key: a row's value in every column of the ordering. */
  function ManagerKey(fields: seq<string>): Entity -> seq<Key>
    requires |fields| > 0
  {
    var cols := ManagerOrdering(fields);
    (e: Entity) => seq(|cols|, i requires 0 <= i < |cols| => ColumnKey(e, cols[i]))
  }

  /** `NaturalOrderByManager.natural_order_by`: the plain query set of the
      whole table, ordered by the manager's own column tuple. */
  function NaturalOrderByManagerOrder(t: Table, fields: seq<string>): (r: Result<seq<Entity>, OrderError>)
    ensures r == Failure(NoFields) <==> |fields| == 0
    ensures r.Success? <==> |fields| > 0 && forall i :: 0 <= i < |fields| ==> fields[i] in t.schema
    ensures r.Success? ==> multiset(r.value) == multiset(t.rows)
    ensures r.Success? ==> Sorted(EngineDefault, ManagerKey(fields), r.value)
  {
    if |fields| == 0 then Failure(NoFields)
    else match FirstUnknown(t.schema, fields)
      case Some(f) => Failure(UnknownField(f))
      case None => Success(Sort(EngineDefault, ManagerKey(fields), t.rows))
  }

  /** `FilterNaturalOrderByManager.natural_order_by`: delegates to its query
      set's `natural_order_by`. */
  function FilterNaturalOrderByManagerOrder(t: Table, fields: seq<string>): (r: Result<seq<Entity>, OrderError>)
    ensures r == Failure(NoFields) <==> |fields| == 0
    ensures r.Success? ==> multiset(r.value) == multiset(t.rows)
    ensures r.Success? ==> Sorted(EngineDefault, RowKey(fields), r.value)
  {
    NaturalOrderBy(t.schema, t.rows, fields)
  }

  /** The manager's column tuple gives every row the key the query set's
      ordering gives it. */
  lemma ManagerKeyIsRowKey(fields: seq<string>, e: Entity)
    requires |fields| > 0
    ensures ManagerKey(fields)(e) == RowKey(fields)(e)
  {
    var n := |fields| - 1;
    var init := fields[..n];
    var cols := ManagerOrdering(fields);
    var got := ManagerKey(fields)(e);
    var want := PlainKeys(init, e) + NaturalColumns(ColumnValue(e, fields[n]));
    forall i | 0 <= i < n
      ensures got[i] == want[i]
    {
      PlainKeysAt(init, e, i);
    }
    assert got == want;
  }

  lemma {:induction false} PlainKeysAt(fields: seq<string>, e: Entity, i: nat)
    requires i < |fields|
    ensures PlainKeys(fields, e)[i] == PlainKey(ColumnValue(e, fields[i]))
    decreases |fields|
  {
    var n := |fields| - 1;
    if i < n {
      PlainKeysAt(fields[..n], e, i);
    }
  }

  /** The two managers order a table the same way, though each builds its
      ordering by its own code. */
  lemma NaturalOrderManagersAgree(t: Table, fields: seq<string>)
    ensures NaturalOrderByManagerOrder(t, fields) == FilterNaturalOrderByManagerOrder(t, fields)
  {
    if |fields| > 0 {
      forall e
        ensures ManagerKey(fields)(e) == RowKey(fields)(e)
      {
        ManagerKeyIsRowKey(fields, e);
      }
      SortSameKeys(EngineDefault, ManagerKey(fields), RowKey(fields), t.rows);
    }
  }

  /** `objects.filter_access(user).natural_order_by(...)`: the visible rows
      of the table, in natural order. */
  function ScopedListing(st: Store, t: Table, p: Principal, fields: seq<string>): (r: Result<seq<Entity>, OrderError>)
    ensures r.Success? <==> NaturalOrderByManagerOrder(t, fields).Success?
    ensures r.Success? ==> forall e :: e in r.value <==> e in t.rows && MaySeeEntity(st, e, p)
    ensures r.Success? ==> Sorted(EngineDefault, RowKey(fields), r.value)
    ensures r.Success? && p.isSuperuser ==> multiset(r.value) == multiset(t.rows)
  {
    var visible := ManagerFilterAccess(st, t, p);
    var r := NaturalOrderBy(t.schema, visible, fields);
    assert r.Success? ==> forall e :: e in r.value <==> e in visible by {
      if r.Success? {
        SameElements(r.value, visible);
      }
    }
    r
  }

  lemma SameElements<T>(a: seq<T>, b: seq<T>)
    requires multiset(a) == multiset(b)
    ensures forall x :: x in a <==> x in b
  {
    forall x
      ensures x in a <==> x in b
    {
      assert x in a <==> x in multiset(a);
      assert x in b <==> x in multiset(b);
    }
  }

  /** Ordering first and scoping afterwards hands out the same rows, and
      when no two rows share a sort key the same listing. */
  lemma ScopedListingEitherWay(st: Store, t: Table, p: Principal, fields: seq<string>)
    requires NaturalOrderByManagerOrder(t, fields).Success?
    ensures multiset(EntityFilterAccess(st, NaturalOrderByManagerOrder(t, fields).value, p))
            == multiset(ScopedListing(st, t, p, fields).value)
    ensures KeysDistinct(RowKey(fields), t.rows) ==>
            EntityFilterAccess(st, NaturalOrderByManagerOrder(t, fields).value, p) == ScopedListing(st, t, p, fields).value
  {
    NaturalOrderManagersAgree(t, fields);
    ScopeAfterOrder(st, t.schema, t.rows, fields, p);
    if KeysDistinct(RowKey(fields), t.rows) {
      ScopeAndOrderCommute(st, t.schema, t.rows, fields, p);
    }
  }
}

=== FILE: middleware.dfy ===
/** The request middleware: the login wall, the API version header, and the
    per-thread record of the user a request is served for. Settings are
    parameters; the downstream handler is a function parameter. */
module Middleware {
  import opened Wrappers
  import opened Tenancy
  import opened Sql

  // ---------------------------------------------------------------------
  // Requests and responses

  /** A request: its `path_info` and the user the authentication layer
      attached to it. */
  datatype Request = Request(path: string, user: Principal)

  /** A response: a redirect target, if it is a redirect, and its headers.
      `HttpResponse` stores a header under its lower-cased name, so the keys
      of `headers` are lower-cased names. */
  datatype Response = Response(redirectTo: Option<string>, headers: map<string, string>)

  /** What the rest of the stack does with a request: answer it or raise. */
  datatype Outcome = Returned(response: Response) | Raised(error: string)

  /** `is_authenticated()`: true of a real account, false of the anonymous
      user. */
  predicate IsAuthenticated(p: Principal)
  {
    p.identity.Account?
  }

  predicate StartsWith(s: string, prefix: string)
  {
    |prefix| <= |s| && s[..|prefix|] == prefix
  }

  // ---------------------------------------------------------------------
  // LoginRequiredMiddleware

  /** The `LOGIN_REQUIRED` setting when the configuration leaves it out. */
  const LoginRequiredDefault: bool := false

  /** The settings the login wall reads, and the path `reverse('api-root')`
      gives. */
  datatype LoginSettings = LoginSettings(loginRequired: bool, loginUrl: string, apiRoot: string)

  const NextParameter: string := "?next="

  /** Where an unauthenticated request is sent: the login page, with the
      requested path appended unencoded as `next`. */
  function LoginLocation(loginUrl: string, path: string): string
  {
    loginUrl + NextParameter + path
  }

  /** The path a login location sends the user back to. */
  function NextOf(loginUrl: string, location: string): (r: Option<string>)
    ensures r.Some? ==> LoginLocation(loginUrl, r.value) == location
  {
    var head := loginUrl + NextParameter;
    if StartsWith(location, head) then Some(location[|head|..]) else None
  }

  /** After logging in the user is sent back to the page they asked for. */
  lemma NextOfLoginLocation(loginUrl: string, path: string)
    ensures NextOf(loginUrl, LoginLocation(loginUrl, path)) == Some(path)
  {
    var head := loginUrl + NextParameter;
    assert LoginLocation(loginUrl, path) == head + path;
    assert (head + path)[..|head|] == head;
    assert (head + path)[|head|..] == path;
  }

  /** The redirect `LoginRequiredMiddleware.__call__` answers with, if any. */
  function LoginRedirect(cfg: LoginSettings, req: Request): (r: Option<string>)
    ensures r.Some? <==>
              cfg.loginRequired && !IsAuthenticated(req.user)
              && !StartsWith(req.path, cfg.apiRoot) && req.path != cfg.loginUrl
    ensures r.Some? ==> NextOf(cfg.loginUrl, r.value) == Some(req.path)
  {
    if cfg.loginRequired && !IsAuthenticated(req.user) then
      if !StartsWith(req.path, cfg.apiRoot) && req.path != cfg.loginUrl then
        NextOfLoginLocation(cfg.loginUrl, req.path);
        Some(LoginLocation(cfg.loginUrl, req.path))
      else None
    else None
  }

  /** `LoginRequiredMiddleware.__call__`: redirect, or hand the request on. */
  function LoginRequired(cfg: LoginSettings, req: Request, next: Request -> Outcome): (r: Outcome)
    ensures LoginRedirect(cfg, req).Some? ==> r == Returned(Response(LoginRedirect(cfg, req), map[]))
    ensures LoginRedirect(cfg, req).None? ==> r == next(req)
  {
    match LoginRedirect(cfg, req)
    case Some(location) => Returned(Response(Some(location), map[]))
    case None => next(req)
  }

  /** The wall never sends anyone away from the login page itself, from the
      API, or when the setting is off; signed-in users always pass. */
  lemma LoginWallPasses(cfg: LoginSettings, req: Request, next: Request -> Outcome)
    requires !cfg.loginRequired || IsAuthenticated(req.user)
             || StartsWith(req.path, cfg.apiRoot) || req.path == cfg.loginUrl
    ensures LoginRequired(cfg, req, next) == next(req)
  {
  }

  /** With the default settings there is no login wall. */
  lemma NoWallByDefault(loginUrl: string, apiRoot: string, req: Request, next: Request -> Outcome)
    ensures LoginRequired(LoginSettings(LoginRequiredDefault, loginUrl, apiRoot), req, next) == next(req)
  {
  }

  // ---------------------------------------------------------------------
  // APIVersionMiddleware

  const ApiVersionHeader: string := "API-Version"

  /** `str.lower()` on the ASCII letters a header name is made of. */
  function LowerChar(c: char): char
  {
    if 'A' <= c <= 'Z' then (c as int + 32) as char else c
  }

  function Lower(s: string): (r: string)
    ensures |r| == |s|
    ensures forall i :: 0 <= i < |s| ==> r[i] == LowerChar(s[i])
  {
    seq(|s|, i requires 0 <= i < |s| => LowerChar(s[i]))
  }

  /** `response[name]`: the header, looked up without regard to case. */
  function Header(resp: Response, name: string): Option<string>
  {
    if Lower(name) in resp.headers then Some(resp.headers[Lower(name)]) else None
  }

  /** `response[name] = value`: replaces the header whatever the case of the
      name it was set under; every other header stays. */
  function SetHeader(resp: Response, name: string, value: string): (r: Response)
    ensures r.redirectTo == resp.redirectTo
    ensures forall other :: Lower(other) == Lower(name) ==> Header(r, other) == Some(value)
    ensures forall h :: h != Lower(name) ==> (h in r.headers <==> h in resp.headers)
    ensures forall h :: h != Lower(name) && h in r.headers ==> r.headers[h] == resp.headers[h]
  {
    resp.(headers := resp.headers[Lower(name) := value])
  }

  /** `APIVersionMiddleware.__call__` after the handler answered: requests
      under the API root get the version header, replacing any header of
      that name in another case. */
  function WithApiVersion(apiRoot: string, version: string, path: string, resp: Response): (r: Response)
    ensures r.redirectTo == resp.redirectTo
    ensures StartsWith(path, apiRoot) ==> forall name :: Lower(name) == Lower(ApiVersionHeader) ==> Header(r, name) == Some(version)
    ensures forall h :: h != Lower(ApiVersionHeader) ==> (h in r.headers <==> h in resp.headers)
    ensures forall h :: h != Lower(ApiVersionHeader) && h in r.headers ==> r.headers[h] == resp.headers[h]
    ensures |r.headers| <= |resp.headers| + 1
    ensures !StartsWith(path, apiRoot) ==> r == resp
  {
    if StartsWith(path, apiRoot) then SetHeader(resp, ApiVersionHeader, version) else resp
  }

  /** A handler that already set `api-version` keeps one such header, now
      holding the version. */
  lemma ApiVersionReplacesLowerCase(apiRoot: string, version: string, path: string, resp: Response)
    requires StartsWith(path, apiRoot)
    ensures Header(WithApiVersion(apiRoot, version, path, resp), "api-version") == Some(version)
  {
    assert Lower("api-version") == Lower(ApiVersionHeader);
  }

  /** Adding the header twice is adding it once. */
  lemma WithApiVersionIdempotent(apiRoot: string, version: string, path: string, resp: Response)
    ensures WithApiVersion(apiRoot, version, path, WithApiVersion(apiRoot, version, path, resp))
            == WithApiVersion(apiRoot, version, path, resp)
  {
  }

  /** The whole middleware: a raised error passes through untouched. */
  function ApiVersion(apiRoot: string, version: string, req: Request, next: Request -> Outcome): (r: Outcome)
    ensures next(req).Raised? ==> r == next(req)
    ensures next(req).Returned? ==> r == Returned(WithApiVersion(apiRoot, version, req.path, next(req).response))
    ensures next(req).Returned? ==> r.Returned? && r.response.redirectTo == next(req).response.redirectTo
    ensures next(req).Returned? && StartsWith(req.path, apiRoot) ==> Header(r.response, ApiVersionHeader) == Some(version)
  {
    match next(req)
    case Returned(resp) => Returned(WithApiVersion(apiRoot, version, req.path, resp))
    case Raised(e) => Raised(e)
  }

  // ---------------------------------------------------------------------
  // GlobalUserMiddleware

  type ThreadId = nat

  /** `GlobalUserMiddleware._user`: the user each thread is serving. */
  type Registry = map<ThreadId, Principal>

  /** `GlobalUserMiddleware.user`: a thread with no entry sees the anonymous
      user. */
  function CurrentUser(reg: Registry, thread: ThreadId): (u: Principal)
    ensures thread in reg ==> u == reg[thread]
    ensures thread !in reg ==> !u.isSuperuser && !IsAuthenticated(u)
  {
    if thread in reg then reg[thread] else Anonymous
  }

  /** `set_user`: record the thread's user; other threads keep theirs. */
  function SetUser(reg: Registry, thread: ThreadId, u: Principal): (r: Registry)
    ensures CurrentUser(r, thread) == u
    ensures forall t :: t != thread ==> (t in r <==> t in reg)
    ensures forall t :: t != thread && t in r ==> r[t] == reg[t]
  {
    reg[thread := u]
  }

  /** `clean_thread`: drop the thread's entry, if there is one. */
  function CleanThread(reg: Registry, thread: ThreadId): (r: Registry)
    ensures thread !in r
    ensures forall t :: t != thread ==> (t in r <==> t in reg)
    ensures forall t :: t != thread && t in r ==> r[t] == reg[t]
  {
    reg - {thread}
  }

  /** Setting a user and cleaning up afterwards gives back the registry as
      it was, when the thread had no entry before. */
  lemma SetThenClean(reg: Registry, thread: ThreadId, u: Principal)
    requires thread !in reg
    ensures CleanThread(SetUser(reg, thread, u), thread) == reg
  {
  }

  /** `process_request`: record the request's user. It answers nothing, so
      `__call__` always goes on to the next layer. */
  function ProcessRequest(reg: Registry, thread: ThreadId, req: Request): (r: (Registry, Option<Response>))
    ensures r.1.None?
    ensures CurrentUser(r.0, thread) == req.user
    ensures r.0 == SetUser(reg, thread, req.user)
  {
    (SetUser(reg, thread, req.user), None)
  }

  /** `process_response`: forget the thread's user and pass the response on. */
  function ProcessResponse(reg: Registry, thread: ThreadId, resp: Response): (r: (Registry, Response))
    ensures r.1 == resp
    ensures thread !in r.0
    ensures r.0 == CleanThread(reg, thread)
  {
    (CleanThread(reg, thread), resp)
  }

  /** `process_exception`: forget the thread's user and raise again. */
  function ProcessException(reg: Registry, thread: ThreadId, error: string): (r: (Registry, Outcome))
    ensures r.1 == Raised(error)
    ensures thread !in r.0
    ensures r.0 == CleanThread(reg, thread)
  {
    (CleanThread(reg, thread), Raised(error))
  }

  /** `GlobalUserMiddleware.__call__` as written: the next layer runs while
      the thread's user is recorded; it has no `try`, so when the next layer
      raises, `process_response` is skipped and the entry stays. */
  function Call(reg: Registry, thread: ThreadId, req: Request, next: (Request, Principal) -> Outcome): (r: (Registry, Outcome))
    ensures r.1 == next(req, req.user)
    ensures r.1.Returned? ==> thread !in r.0
    ensures r.1.Returned? ==> r.0 == CleanThread(SetUser(reg, thread, req.user), thread)
    ensures r.1.Raised? ==> r.0 == SetUser(reg, thread, req.user)
  {
    // `process_request` never answers, so the next layer always runs.
    var (afterRequest, _) := ProcessRequest(reg, thread, req);
    var downstream := next(req, CurrentUser(afterRequest, thread));
    match downstream
    case Returned(resp) =>
      var (done, out) := ProcessResponse(afterRequest, thread, resp);
      (done, Returned(out))
    case Raised(e) => (afterRequest, downstream)
  }

  /** The registry's end state once a request is over, whichever way the
      exception hooks run: an exception the next layer raises either ends
      in `process_response` (the framework turns it into an error response)
      or reaches `process_exception`, and both clear the thread. Only that
      end state is modelled, not where inside the view call the hook runs. */
  function Serve(reg: Registry, thread: ThreadId, req: Request, next: (Request, Principal) -> Outcome): (r: (Registry, Outcome))
    ensures r.1 == next(req, req.user)
    ensures thread !in r.0
    ensures forall t :: t != thread ==> (t in r.0 <==> t in reg)
    ensures forall t :: t != thread && t in r.0 ==> r.0[t] == reg[t]
  {
    var (afterCall, outcome) := Call(reg, thread, req, next);
    match outcome
    case Returned(_) => (afterCall, outcome)
    case Raised(e) => ProcessException(afterCall, thread, e)
  }

  /** `__call__` clears the thread only from `process_response`: an
      exception that escapes the framework's conversion of errors into
      responses, so that neither `process_response` nor
      `process_exception` runs, leaves the request's user in the registry
      for the thread's next reader. */
  lemma RaisingLayerLeavesUser(reg: Registry, thread: ThreadId, req: Request, next: (Request, Principal) -> Outcome)
    requires next(req, req.user).Raised?
    ensures CurrentUser(Call(reg, thread, req, next).0, thread) == req.user
  {
  }

  /** Once a request is served the thread is back to the anonymous user, who
      is shown no tenant-scoped object and no tenant. */
  lemma ServedThreadSeesNothing(reg: Registry, thread: ThreadId, req: Request, next: (Request, Principal) -> Outcome,
                                st: Store, rows: seq<Entity>, tenants: seq<Tenant>)
    ensures var u := CurrentUser(Serve(reg, thread, req, next).0, thread);
            EntityFilterAccess(st, rows, u) == [] && TenantFilterAccess(st.groups, tenants, u) == []
  {
  }
}

=== FILE: natural_keys.dfy ===
/** The three synthetic sort keys behind natural ordering. A text value is
    cut into a leading integer, a middle part and a trailing integer, the way
    the three `SUBSTRING` regular expressions of `natural_order_by` cut it:
      k1  `^(\d{1,9})`     at most nine leading digits, as an integer
      k2  `^\d*(.*?)\d*$`  the text between the leading and trailing digit runs
      k3  `(\d{1,9})$`     at most nine trailing digits, as an integer
    Digits are the ASCII digits. The scan works on positions, never on
    copies of the text. */
module NaturalKeys {
  import opened Wrappers
  import opened Ordering

  /** The `{1,9}` bound of both integer patterns. */
  const MaxDigits: nat := 9

  predicate IsDigit(c: char)
  {
    '0' <= c <= '9'
  }

  predicate AllDigits(s: string)
  {
    forall i :: 0 <= i < |s| ==> IsDigit(s[i])
  }

  function Min(a: nat, b: nat): nat
  {
    if a <= b then a else b
  }

  function Pow10(n: nat): (r: nat)
    ensures r >= 1
  {
    if n == 0 then 1 else 10 * Pow10(n - 1)
  }

  /** Scanning forward from `i`, the position where the digit run ends. */
  function RunEnd(s: string, i: nat): (e: nat)
    requires i <= |s|
    ensures i <= e <= |s|
    ensures forall k :: i <= k < e ==> IsDigit(s[k])
    ensures e < |s| ==> !IsDigit(s[e])
    decreases |s| - i
  {
    if i == |s| || !IsDigit(s[i]) then i else RunEnd(s, i + 1)
  }

  /** Scanning backward from `j`, never below `lo`, the position where the
      digit run that ends at `j` starts. */
  function RunStart(s: string, lo: nat, j: nat): (b: nat)
    requires lo <= j <= |s|
    ensures lo <= b <= j
    ensures forall k :: b <= k < j ==> IsDigit(s[k])
    ensures b > lo ==> !IsDigit(s[b - 1])
    decreases j
  {
    if j == lo || !IsDigit(s[j - 1]) then j else RunStart(s, lo, j - 1)
  }

  /** The scans return the only positions with their maximality property. */
  lemma {:induction false} RunEndUnique(s: string, i: nat, e: nat)
    requires i <= e <= |s|
    requires forall k :: i <= k < e ==> IsDigit(s[k])
    requires e < |s| ==> !IsDigit(s[e])
    ensures RunEnd(s, i) == e
    decreases e - i
  {
    if i < e {
      RunEndUnique(s, i + 1, e);
    }
  }

  lemma {:induction false} RunStartUnique(s: string, lo: nat, j: nat, b: nat)
    requires lo <= b <= j <= |s|
    requires forall k :: b <= k < j ==> IsDigit(s[k])
    requires b > lo ==> !IsDigit(s[b - 1])
    ensures RunStart(s, lo, j) == b
    decreases j - b
  {
    if b < j {
      RunStartUnique(s, lo, j - 1, b);
    }
  }

  /** A backward scan never crosses a non-digit. */
  lemma {:induction false} RunStartStopsAt(s: string, lo: nat, j: nat, i: nat)
    requires lo <= i < j <= |s| && !IsDigit(s[i])
    ensures RunStart(s, lo, j) > i
    decreases j
  {
    if j - 1 > i && IsDigit(s[j - 1]) {
      RunStartStopsAt(s, lo, j - 1, i);
    }
  }

  /** Length of the digit run that starts the value. */
  function LeadingRun(s: string): nat
  {
    RunEnd(s, 0)
  }

  /** Position where the digit run that ends the value starts. */
  function TrailingStart(s: string): nat
  {
    RunStart(s, 0, |s|)
  }

  /** Decimal value of a digit string; leading zeros contribute nothing. */
  function DecimalValue(ds: string): nat
    requires AllDigits(ds)
  {
    if |ds| == 0 then 0
    else 10 * DecimalValue(ds[..|ds| - 1]) + (ds[|ds| - 1] as int - '0' as int)
  }

  /** A value of at most `n` digits is below `10^n`. */
  lemma {:induction false} DecimalValueBound(ds: string)
    requires AllDigits(ds)
    ensures DecimalValue(ds) < Pow10(|ds|)
  {
    if |ds| > 0 {
      DecimalValueBound(ds[..|ds| - 1]);
    }
  }

  lemma {:induction false} Pow10Monotone(a: nat, b: nat)
    requires a <= b
    ensures Pow10(a) <= Pow10(b)
  {
    if a < b {
      Pow10Monotone(a, b - 1);
    }
  }

  /** The shortest decimal spelling of `n` (no leading zeros). */
  function Render(n: nat): (r: string)
    ensures |r| >= 1 && AllDigits(r)
    ensures DecimalValue(r) == n
  {
    var d := ['0' + (n % 10) as char];
    if n < 10 then d
    else
      var r := Render(n / 10) + d;
      assert r[..|r| - 1] == Render(n / 10);
      r
  }

  lemma {:induction false} RenderLength(n: nat, k: nat)
    requires k >= 1 && n < Pow10(k)
    ensures |Render(n)| <= k
  {
    if n >= 10 {
      assert Pow10(1) == 10;
      assert n / 10 < Pow10(k - 1);
      RenderLength(n / 10, k - 1);
    }
  }

  /** k1: the first (at most nine) digits of the leading run, absent when the
      value does not start with a digit. */
  function LeadingInt(s: string): (k: Option<nat>)
    ensures k.None? <==> |s| == 0 || !IsDigit(s[0])
  {
    var e := LeadingRun(s);
    if e == 0 then None else Some(DecimalValue(s[..Min(e, MaxDigits)]))
  }

  /** k3: the last (at most nine) digits of the trailing run, absent when the
      value does not end with a digit. */
  function TrailingInt(s: string): (k: Option<nat>)
    ensures k.None? <==> |s| == 0 || !IsDigit(s[|s| - 1])
  {
    var b := TrailingStart(s);
    if b == |s| then None else Some(DecimalValue(s[|s| - Min(|s| - b, MaxDigits)..]))
  }

  /** Both integer keys stay below `10^9`, so the cast to the 32-bit
      `integer` type never overflows, however long the digit runs are. */
  lemma IntegerKeysFit(s: string)
    ensures LeadingInt(s).Some? ==> LeadingInt(s).value < Pow10(MaxDigits)
    ensures TrailingInt(s).Some? ==> TrailingInt(s).value < Pow10(MaxDigits)
  {
    assert LeadingInt(s).Some? ==> LeadingInt(s).value < Pow10(MaxDigits) by {
      var e := LeadingRun(s);
      if e > 0 {
        var ds := s[..Min(e, MaxDigits)];
        DecimalValueBound(ds);
        Pow10Monotone(|ds|, MaxDigits);
      }
    }
    assert TrailingInt(s).Some? ==> TrailingInt(s).value < Pow10(MaxDigits) by {
      var b := TrailingStart(s);
      if b < |s| {
        var ds := s[|s| - Min(|s| - b, MaxDigits)..];
        DecimalValueBound(ds);
        Pow10Monotone(|ds|, MaxDigits);
      }
    }
  }

  /** The three pieces `^(\d*)(.*?)(\d*)$` splits a value into: the first
      digit run is greedy, the middle is as short as possible, and the last
      digit run takes what the middle leaves. */
  datatype Segments = Segments(lead: string, middle: string, trail: string)

  /** Well-formed segmentation of `s`; it has exactly one solution. */
  predicate IsSegmentation(s: string, g: Segments)
  {
    && g.lead + g.middle + g.trail == s
    && AllDigits(g.lead)
    && AllDigits(g.trail)
    && (|g.middle| > 0 ==> !IsDigit(g.middle[0]) && !IsDigit(g.middle[|g.middle| - 1]))
    && (|g.middle| == 0 ==> |g.trail| == 0)
  }

  function Segment(s: string): Segments
  {
    var a := LeadingRun(s);
    var b := RunStart(s, a, |s|);
    Segments(s[..a], s[a..b], s[b..])
  }

  /** The scan produces a well-formed segmentation: the three pieces put
      back together give the value, the outer two are digit runs and the
      middle neither starts nor ends with a digit. */
  lemma SegmentIsSegmentation(s: string)
    ensures IsSegmentation(s, Segment(s))
  {
    var a := LeadingRun(s);
    var b := RunStart(s, a, |s|);
    SplitIsSegmentation(s, a, b);
  }

  lemma SplitIsSegmentation(s: string, a: nat, b: nat)
    requires a <= b <= |s|
    requires forall k :: 0 <= k < a ==> IsDigit(s[k])
    requires forall k :: b <= k < |s| ==> IsDigit(s[k])
    requires a < |s| ==> a < b && !IsDigit(s[a]) && !IsDigit(s[b - 1])
    ensures IsSegmentation(s, Segments(s[..a], s[a..b], s[b..]))
  {
    ThreeWaySplit(s, a, b);
    DigitSlice(s, 0, a);
    DigitSlice(s, b, |s|);
    if a < |s| {
      MiddleEnds(s, a, b);
    }
  }

  lemma DigitSlice(s: string, i: nat, j: nat)
    requires i <= j <= |s|
    requires forall k :: i <= k < j ==> IsDigit(s[k])
    ensures AllDigits(s[i..j])
  {
  }

  lemma MiddleEnds(s: string, a: nat, b: nat)
    requires a < b <= |s| && !IsDigit(s[a]) && !IsDigit(s[b - 1])
    ensures |s[a..b]| > 0 && !IsDigit(s[a..b][0]) && !IsDigit(s[a..b][b - a - 1])
  {
  }

  lemma ThreeWaySplit(s: string, a: nat, b: nat)
    requires a <= b <= |s|
    ensures s[..a] + s[a..b] + s[b..] == s
  {
    assert s[..a] + s[a..b] == s[..b];
  }

  /** Any well-formed segmentation is the one `Segment` computes, so the
      middle key does not depend on how the scan is written. */
  lemma SegmentationUnique(s: string, g: Segments)
    requires IsSegmentation(s, g)
    ensures Segment(s) == g
  {
    var a, m := |g.lead|, |g.middle|;
    assert s[..a] == g.lead;
    assert s[a..a + m] == g.middle;
    assert s[a + m..] == g.trail;
    RunEndUnique(s, 0, a);
    RunStartUnique(s, a, |s|, a + m);
  }

  /** k2: the value with its whole leading and trailing digit runs removed. */
  function Middle(s: string): string
  {
    Segment(s).middle
  }

  /** The three keys of one text value. */
  datatype NaturalKey = NaturalKey(leading: Option<nat>, middle: string, trailing: Option<nat>)

  function KeyOf(s: string): NaturalKey
  {
    NaturalKey(LeadingInt(s), Middle(s), TrailingInt(s))
  }

  function IntOrNull(k: Option<nat>): Key
  {
    match k
    case None => Null
    case Some(v) => Int(v)
  }

  /** The sort-key columns `(k1, k2, k3)` of a column value; a NULL column
      makes all three keys NULL. */
  function NaturalColumns(v: Option<string>): (r: seq<Key>)
    ensures |r| == 3
    ensures v.None? ==> r == [Null, Null, Null]
    ensures v.Some? ==> r[0] == IntOrNull(LeadingInt(v.value))
    ensures v.Some? ==> r[1] == Str(Middle(v.value))
    ensures v.Some? ==> r[2] == IntOrNull(TrailingInt(v.value))
  {
    match v
    case None => [Null, Null, Null]
    case Some(s) => [IntOrNull(LeadingInt(s)), Str(Middle(s)), IntOrNull(TrailingInt(s))]
  }

  /** When the value holds a non-digit, the two runs are apart and the middle
      key is exactly the text between them. */
  lemma MiddleStripsBothRuns(s: string)
    requires !AllDigits(s)
    ensures LeadingRun(s) < TrailingStart(s)
    ensures Middle(s) == s[LeadingRun(s)..TrailingStart(s)]
  {
    var a := LeadingRun(s);
    RunStartStopsAt(s, 0, |s|, a);
    RunStartUnique(s, a, |s|, TrailingStart(s));
  }

  /** For a value made only of digits, k2 is empty and k1 and k3 both read
      that one run. */
  lemma AllDigitKeys(s: string)
    requires |s| > 0 && AllDigits(s)
    ensures Middle(s) == ""
    ensures LeadingInt(s) == Some(DecimalValue(s[..Min(|s|, MaxDigits)]))
    ensures TrailingInt(s) == Some(DecimalValue(s[|s| - Min(|s|, MaxDigits)..]))
  {
    RunEndUnique(s, 0, |s|);
    RunStartUnique(s, 0, |s|, 0);
  }

  /** A number of at most nine digits yields k1 == k3 == its value. */
  lemma ShortNumberKeys(s: string)
    requires |s| > 0 && AllDigits(s) && |s| <= MaxDigits
    ensures LeadingInt(s) == TrailingInt(s) == Some(DecimalValue(s))
  {
    AllDigitKeys(s);
    assert s[..Min(|s|, MaxDigits)] == s;
    assert s[|s| - Min(|s|, MaxDigits)..] == s;
  }

  /** A name followed by a number: k1 and k2 come from the name alone and k3
      is the number itself. */
  lemma KeyOfNumberedName(p: string, n: nat)
    requires |p| > 0 && !IsDigit(p[|p| - 1])
    requires n < Pow10(MaxDigits)
    ensures KeyOf(p + Render(n)) == NaturalKey(LeadingInt(p), p[LeadingRun(p)..], Some(n))
  {
    var r := Render(n);
    var s := p + r;
    var a := LeadingRun(p);
    RunStartStopsAt(p, 0, |p|, |p| - 1);
    RunEndUnique(s, 0, a);
    assert s[..Min(a, MaxDigits)] == p[..Min(a, MaxDigits)];
    RunStartUnique(s, a, |s|, |p|);
    RunStartUnique(s, 0, |s|, |p|);
    RenderLength(n, MaxDigits);
    assert s[|s| - Min(|s| - |p|, MaxDigits)..] == r;
    assert s[a..|p|] == p[a..];
  }

  /** A number followed by a name: k1 is the number itself, whatever the
      name holds ("12ab", "1 Rack"). */
  lemma NumberedPrefixKey(n: nat, q: string)
    requires n < Pow10(MaxDigits)
    requires |q| == 0 || !IsDigit(q[0])
    ensures LeadingInt(Render(n) + q) == Some(n)
  {
    var r := Render(n);
    var s := r + q;
    RenderLength(n, MaxDigits);
    assert forall k :: 0 <= k < |r| ==> s[k] == r[k];
    RunEndUnique(s, 0, |r|);
    assert s[..Min(|r|, MaxDigits)] == r;
  }
  /** k1 of a value that starts with the digit run `d`: the first nine
      digits of the run at most, leading zeros included in the run. */
  lemma LeadingDigitsKey(d: string, q: string)
    requires |d| > 0 && AllDigits(d)
    requires |q| == 0 || !IsDigit(q[0])
    ensures LeadingInt(d + q) == Some(DecimalValue(d[..Min(|d|, MaxDigits)]))
  {
    var s := d + q;
    assert forall k :: 0 <= k < |d| ==> s[k] == d[k];
    RunEndUnique(s, 0, |d|);
    assert s[..Min(|d|, MaxDigits)] == d[..Min(|d|, MaxDigits)];
  }

  /** k3 of a value that ends with the digit run `d`: the last nine digits
      of the run at most. */
  lemma TrailingDigitsKey(p: string, d: string)
    requires |d| > 0 && AllDigits(d)
    requires |p| == 0 || !IsDigit(p[|p| - 1])
    ensures TrailingInt(p + d) == Some(DecimalValue(d[|d| - Min(|d|, MaxDigits)..]))
  {
    var s := p + d;
    assert forall k :: |p| <= k < |s| ==> s[k] == d[k - |p|];
    RunStartUnique(s, 0, |s|, |p|);
    assert s[|s| - Min(|d|, MaxDigits)..] == d[|d| - Min(|d|, MaxDigits)..];
  }
}

=== FILE: ordering.dfy ===
/** Sort keys as an SQL `ORDER BY` sees them: each record yields a tuple of
    column values, compared column by column in ascending order. A NULL
    column value is `Null`; where NULLs go is an explicit choice, because
    the engine default differs from what a reader may assume. Text compares
    by code point (collation rules are not modelled). */
module Ordering {
  import opened Seqs

  /** Where absent (NULL) keys sort relative to present ones. */
  datatype NullPlacement = NullsFirst | NullsLast

  /** PostgreSQL places NULLs last in an ascending sort unless told otherwise. */
  const EngineDefault: NullPlacement := NullsLast

  /** One column value of a sort key. */
  datatype Key = Null | Int(i: int) | Str(s: string)

  /** Code-point lexicographic order on text: a proper prefix sorts first. */
  predicate StrLe(a: string, b: string)
  {
    if |a| == 0 then true
    else if |b| == 0 then false
    else if a[0] != b[0] then a[0] < b[0]
    else StrLe(a[1..], b[1..])
  }

  lemma {:induction false} StrLeReflexive(a: string)
    ensures StrLe(a, a)
  {
    if |a| > 0 { StrLeReflexive(a[1..]); }
  }

  lemma {:induction false} StrLeTotal(a: string, b: string)
    ensures StrLe(a, b) || StrLe(b, a)
  {
    if |a| > 0 && |b| > 0 && a[0] == b[0] { StrLeTotal(a[1..], b[1..]); }
  }

  lemma {:induction false} StrLeAntisymmetric(a: string, b: string)
    requires StrLe(a, b) && StrLe(b, a)
    ensures a == b
  {
    if |a| > 0 && |b| > 0 {
      StrLeAntisymmetric(a[1..], b[1..]);
      assert a == [a[0]] + a[1..];
      assert b == [b[0]] + b[1..];
    }
  }

  lemma {:induction false} StrLeTransitive(a: string, b: string, c: string)
    requires StrLe(a, b) && StrLe(b, c)
    ensures StrLe(a, c)
  {
    if |a| > 0 && |b| > 0 && |c| > 0 && a[0] == b[0] && b[0] == c[0] {
      StrLeTransitive(a[1..], b[1..], c[1..]);
    }
  }

  /** Order on single column values. Integers and text never share a column;
      the order between them is fixed only to keep the relation total. */
  predicate KeyLe(nulls: NullPlacement, a: Key, b: Key)
  {
    match (a, b)
    case (Null, Null) => true
    case (Null, _) => nulls == NullsFirst
    case (_, Null) => nulls == NullsLast
    case (Int(x), Int(y)) => x <= y
    case (Int(_), Str(_)) => true
    case (Str(_), Int(_)) => false
    case (Str(x), Str(y)) => StrLe(x, y)
  }

  lemma KeyLeTotal(nulls: NullPlacement, a: Key, b: Key)
    ensures KeyLe(nulls, a, b) || KeyLe(nulls, b, a)
  {
    if a.Str? && b.Str? { StrLeTotal(a.s, b.s); }
  }

  lemma KeyLeAntisymmetric(nulls: NullPlacement, a: Key, b: Key)
    ensures KeyLe(nulls, a, b) && KeyLe(nulls, b, a) ==> a == b
  {
    if a.Str? && b.Str? && StrLe(a.s, b.s) && StrLe(b.s, a.s) {
      StrLeAntisymmetric(a.s, b.s);
    }
  }

  lemma KeyLeTransitive(nulls: NullPlacement, a: Key, b: Key, c: Key)
    requires KeyLe(nulls, a, b) && KeyLe(nulls, b, c)
    ensures KeyLe(nulls, a, c)
  {
    if a.Str? && b.Str? && c.Str? { StrLeTransitive(a.s, b.s, c.s); }
  }

  /** `ORDER BY k1, k2, ...`: the first column that differs decides. */
  predicate KeysLe(nulls: NullPlacement, a: seq<Key>, b: seq<Key>)
  {
    if |a| == 0 then true
    else if |b| == 0 then false
    else if a[0] != b[0] then KeyLe(nulls, a[0], b[0])
    else KeysLe(nulls, a[1..], b[1..])
  }

  lemma {:induction false} KeysLeReflexive(nulls: NullPlacement, a: seq<Key>)
    ensures KeysLe(nulls, a, a)
  {
    if |a| > 0 { KeysLeReflexive(nulls, a[1..]); }
  }

  lemma {:induction false} KeysLeTotal(nulls: NullPlacement, a: seq<Key>, b: seq<Key>)
    ensures KeysLe(nulls, a, b) || KeysLe(nulls, b, a)
  {
    if |a| > 0 && |b| > 0 {
      if a[0] == b[0] {
        KeysLeTotal(nulls, a[1..], b[1..]);
      } else {
        KeyLeTotal(nulls, a[0], b[0]);
      }
    }
  }

  lemma {:induction false} KeysLeTransitive(nulls: NullPlacement, a: seq<Key>, b: seq<Key>, c: seq<Key>)
    requires KeysLe(nulls, a, b) && KeysLe(nulls, b, c)
    ensures KeysLe(nulls, a, c)
  {
    if |a| > 0 && |b| > 0 && |c| > 0 {
      if a[0] == b[0] && b[0] == c[0] {
        KeysLeTransitive(nulls, a[1..], b[1..], c[1..]);
      } else if a[0] != b[0] && b[0] != c[0] {
        KeyLeTransitive(nulls, a[0], b[0], c[0]);
        KeyLeAntisymmetric(nulls, a[0], b[0]);
      }
    }
  }

  lemma {:induction false} KeysLeAntisymmetric(nulls: NullPlacement, a: seq<Key>, b: seq<Key>)
    ensures KeysLe(nulls, a, b) && KeysLe(nulls, b, a) ==> a == b
  {
    if |a| > 0 && |b| > 0 {
      if a[0] == b[0] {
        KeysLeAntisymmetric(nulls, a[1..], b[1..]);
        assert a == [a[0]] + a[1..] && b == [b[0]] + b[1..];
      } else {
        KeyLeAntisymmetric(nulls, a[0], b[0]);
      }
    }
  }

  /** Key tuples that agree on a prefix are ordered by what follows it. */
  lemma {:induction false} KeysLeAfterCommonPrefix(nulls: NullPlacement, p: seq<Key>, a: seq<Key>, b: seq<Key>)
    ensures KeysLe(nulls, p + a, p + b) <==> KeysLe(nulls, a, b)
  {
    if |p| > 0 {
      assert (p + a)[0] == p[0] == (p + b)[0];
      assert (p + a)[1..] == p[1..] + a;
      assert (p + b)[1..] == p[1..] + b;
      KeysLeAfterCommonPrefix(nulls, p[1..], a, b);
    } else {
      assert p + a == a && p + b == b;
    }
  }

  /** Every adjacent-or-not pair of `s` is in key order. */
  ghost predicate Sorted<T>(nulls: NullPlacement, key: T -> seq<Key>, s: seq<T>)
  {
    forall i, j :: 0 <= i < j < |s| ==> KeysLe(nulls, key(s[i]), key(s[j]))
  }

  /** Inserts `x` into the sorted `s` after every element it does not precede. */
  function Insert<T>(nulls: NullPlacement, key: T -> seq<Key>, x: T, s: seq<T>): (r: seq<T>)
    requires Sorted(nulls, key, s)
    ensures multiset(r) == multiset(s) + multiset{x}
    ensures Sorted(nulls, key, r)
  {
    if |s| == 0 then [x]
    else if KeysLe(nulls, key(x), key(s[0])) then
      InsertFrontSorted(nulls, key, x, s);
      [x] + s
    else
      assert s == [s[0]] + s[1..];
      var rest := Insert(nulls, key, x, s[1..]);
      KeysLeTotal(nulls, key(x), key(s[0]));
      HeadBelowInsert(nulls, key, x, s, rest);
      [s[0]] + rest
  }

  lemma InsertFrontSorted<T>(nulls: NullPlacement, key: T -> seq<Key>, x: T, s: seq<T>)
    requires Sorted(nulls, key, s) && |s| > 0
    requires KeysLe(nulls, key(x), key(s[0]))
    ensures Sorted(nulls, key, [x] + s)
  {
    var r := [x] + s;
    forall i, j | 0 <= i < j < |r|
      ensures KeysLe(nulls, key(r[i]), key(r[j]))
    {
      if i == 0 && j > 1 {
        KeysLeTransitive(nulls, key(x), key(s[0]), key(s[j - 1]));
      }
    }
  }

  lemma HeadBelowInsert<T>(nulls: NullPlacement, key: T -> seq<Key>, x: T, s: seq<T>, rest: seq<T>)
    requires Sorted(nulls, key, s) && |s| > 0
    requires KeysLe(nulls, key(s[0]), key(x))
    requires multiset(rest) == multiset(s[1..]) + multiset{x}
    requires Sorted(nulls, key, rest)
    ensures Sorted(nulls, key, [s[0]] + rest)
  {
    var r := [s[0]] + rest;
    forall j | 1 <= j < |r|
      ensures KeysLe(nulls, key(s[0]), key(r[j]))
    {
      var y := rest[j - 1];
      assert y in multiset(rest);
      if y != x {
        assert y in multiset(s[1..]);
        var k :| 0 <= k < |s[1..]| && s[1..][k] == y;
        assert s[k + 1] == y;
      }
    }
  }

  /** An insertion sort: a permutation of `s` in key order. */
  function Sort<T>(nulls: NullPlacement, key: T -> seq<Key>, s: seq<T>): (r: seq<T>)
    ensures multiset(r) == multiset(s)
    ensures Sorted(nulls, key, r)
  {
    if |s| == 0 then []
    else
      assert s == [s[0]] + s[1..];
      Insert(nulls, key, s[0], Sort(nulls, key, s[1..]))
  }

  /** No two distinct elements of `s` share a sort key. */
  ghost predicate KeysDistinct<T>(key: T -> seq<Key>, s: seq<T>)
  {
    forall i, j :: 0 <= i < |s| && 0 <= j < |s| && key(s[i]) == key(s[j]) ==> s[i] == s[j]
  }

  /** When no two elements share a key, the sorted order is fully
      determined: any two sorted permutations of the same rows coincide. */
  lemma {:induction false} SortedUnique<T>(nulls: NullPlacement, key: T -> seq<Key>, a: seq<T>, b: seq<T>)
    requires multiset(a) == multiset(b)
    requires Sorted(nulls, key, a) && Sorted(nulls, key, b)
    requires KeysDistinct(key, a)
    ensures a == b
  {
    if |a| == 0 {
      assert |multiset(b)| == 0;
    } else {
      assert |b| == |multiset(b)| == |multiset(a)| == |a| > 0;
      assert a[0] in multiset(b);
      var j :| 0 <= j < |b| && b[j] == a[0];
      assert b[0] in multiset(a);
      var i :| 0 <= i < |a| && a[i] == b[0];
      if j > 0 { assert KeysLe(nulls, key(b[0]), key(b[j])); } else { KeysLeReflexive(nulls, key(b[0])); }
      if i > 0 { assert KeysLe(nulls, key(a[0]), key(a[i])); } else { KeysLeReflexive(nulls, key(a[0])); }
      KeysLeAntisymmetric(nulls, key(a[0]), key(b[0]));
      assert a[0] == b[0];
      TailMultiset(a);
      TailMultiset(b);
      assert KeysDistinct(key, a[1..]) by {
        forall i, j | 0 <= i < |a[1..]| && 0 <= j < |a[1..]| && key(a[1..][i]) == key(a[1..][j])
          ensures a[1..][i] == a[1..][j]
        {
          assert a[1..][i] == a[i + 1] && a[1..][j] == a[j + 1];
        }
      }
      SortedUnique(nulls, key, a[1..], b[1..]);
    }
  }

  lemma TailMultiset<T>(s: seq<T>)
    requires |s| > 0
    ensures multiset(s[1..]) == multiset(s) - multiset{s[0]}
  {
    assert s == [s[0]] + s[1..];
  }

  /** In a sorted sequence no element has a key strictly below that of an
      element before it. */
  lemma SortedPairs<T>(nulls: NullPlacement, key: T -> seq<Key>, s: seq<T>, i: nat, j: nat)
    requires Sorted(nulls, key, s) && i < |s| && j < |s|
    ensures j <= i ==> KeysLe(nulls, key(s[j]), key(s[i]))
  {
    KeysLeReflexive(nulls, key(s[i]));
  }

  /** A head no greater than anything in a sorted tail gives a sorted whole. */
  lemma ConsSorted<T>(nulls: NullPlacement, key: T -> seq<Key>, a: T, rest: seq<T>)
    requires Sorted(nulls, key, rest)
    requires forall y :: y in rest ==> KeysLe(nulls, key(a), key(y))
    ensures Sorted(nulls, key, [a] + rest)
  {
    var r := [a] + rest;
    forall i, j | 0 <= i < j < |r|
      ensures KeysLe(nulls, key(r[i]), key(r[j]))
    {
      assert r[j] == rest[j - 1];
      if i > 0 {
        assert r[i] == rest[i - 1];
      }
    }
  }

  lemma HeadBelowTail<T>(nulls: NullPlacement, key: T -> seq<Key>, s: seq<T>)
    requires Sorted(nulls, key, s) && |s| > 0
    ensures forall y :: y in s[1..] ==> KeysLe(nulls, key(s[0]), key(y))
  {
    forall y | y in s[1..]
      ensures KeysLe(nulls, key(s[0]), key(y))
    {
      var k :| 0 <= k < |s[1..]| && s[1..][k] == y;
      assert s[k + 1] == y;
    }
  }

  /** Dropping rows from a sorted listing leaves it sorted. */
  lemma {:induction false} FilterKeepsSorted<T(!new)>(nulls: NullPlacement, key: T -> seq<Key>, s: seq<T>, keep: T -> bool)
    requires Sorted(nulls, key, s)
    ensures Sorted(nulls, key, Filter(s, keep))
  {
    if |s| > 0 {
      assert Sorted(nulls, key, s[1..]);
      FilterKeepsSorted(nulls, key, s[1..], keep);
      if keep(s[0]) {
        HeadBelowTail(nulls, key, s);
        ConsSorted(nulls, key, s[0], Filter(s[1..], keep));
      }
    }
  }

  /** Insertion depends on the key function only through the keys it gives. */
  lemma {:induction false} InsertSameKeys<T>(nulls: NullPlacement, k1: T -> seq<Key>, k2: T -> seq<Key>, x: T, s: seq<T>)
    requires forall y :: k1(y) == k2(y)
    requires Sorted(nulls, k1, s)
    ensures Sorted(nulls, k2, s)
    ensures Insert(nulls, k1, x, s) == Insert(nulls, k2, x, s)
    decreases |s|
  {
    if |s| > 0 {
      assert Sorted(nulls, k1, s[1..]) by {
        forall i, j | 0 <= i < j < |s[1..]|
          ensures KeysLe(nulls, k1(s[1..][i]), k1(s[1..][j]))
        {
          assert s[1..][i] == s[i + 1] && s[1..][j] == s[j + 1];
        }
      }
      InsertSameKeys(nulls, k1, k2, x, s[1..]);
    }
  }

  /** Two key functions that agree on every element sort alike. */
  lemma {:induction false} SortSameKeys<T>(nulls: NullPlacement, k1: T -> seq<Key>, k2: T -> seq<Key>, s: seq<T>)
    requires forall y :: k1(y) == k2(y)
    ensures Sort(nulls, k1, s) == Sort(nulls, k2, s)
    decreases |s|
  {
    if |s| > 0 {
      SortSameKeys(nulls, k1, k2, s[1..]);
      InsertSameKeys(nulls, k1, k2, s[0], Sort(nulls, k1, s[1..]));
    }
  }

  lemma SortedThree<T>(nulls: NullPlacement, key: T -> seq<Key>, a: T, b: T, c: T)
    requires KeysLe(nulls, key(a), key(b)) && KeysLe(nulls, key(b), key(c))
    requires key(a) != key(b) && key(a) != key(c) && key(b) != key(c)
    ensures Sorted(nulls, key, [a, b, c]) && KeysDistinct(key, [a, b, c])
  {
    KeysLeTransitive(nulls, key(a), key(b), key(c));
  }

  lemma SortedFour<T>(nulls: NullPlacement, key: T -> seq<Key>, a: T, b: T, c: T, d: T)
    requires KeysLe(nulls, key(a), key(b)) && KeysLe(nulls, key(b), key(c)) && KeysLe(nulls, key(c), key(d))
    requires key(a) != key(b) && key(a) != key(c) && key(a) != key(d)
    requires key(b) != key(c) && key(b) != key(d) && key(c) != key(d)
    ensures Sorted(nulls, key, [a, b, c, d]) && KeysDistinct(key, [a, b, c, d])
  {
    KeysLeTransitive(nulls, key(a), key(b), key(c));
    KeysLeTransitive(nulls, key(b), key(c), key(d));
    KeysLeTransitive(nulls, key(a), key(c), key(d));
  }

  /** Rows drawn from a listing without shared keys share no keys either. */
  lemma KeysDistinctSubset<T>(key: T -> seq<Key>, s: seq<T>, t: seq<T>)
    requires KeysDistinct(key, s)
    requires forall x :: x in t ==> x in s
    ensures KeysDistinct(key, t)
  {
    forall i, j | 0 <= i < |t| && 0 <= j < |t| && key(t[i]) == key(t[j])
      ensures t[i] == t[j]
    {
      assert t[i] in s && t[j] in s;
      var a :| 0 <= a < |s| && s[a] == t[i];
      var b :| 0 <= b < |s| && s[b] == t[j];
    }
  }
}

=== FILE: seqs.dfy ===
/** Order-preserving filtering of query results, the sequence counterpart of
    a `WHERE` clause. */
module Seqs {

  /** The elements of `s` that satisfy `keep`; that they keep their relative
      order is `Ordering.FilterKeepsSorted`. */
  function Filter<T(!new)>(s: seq<T>, keep: T -> bool): (r: seq<T>)
    ensures |r| <= |s|
    ensures forall x :: x in r <==> x in s && keep(x)
    ensures forall i :: 0 <= i < |r| ==> keep(r[i])
    ensures multiset(r) <= multiset(s)
  {
    if |s| == 0 then []
    else
      assert s == [s[0]] + s[1..];
      if keep(s[0]) then [s[0]] + Filter(s[1..], keep) else Filter(s[1..], keep)
  }

  /** Filtering twice with the same condition is filtering once. */
  lemma {:induction false} FilterIdempotent<T(!new)>(s: seq<T>, keep: T -> bool)
    ensures Filter(Filter(s, keep), keep) == Filter(s, keep)
  {
    if |s| > 0 {
      FilterIdempotent(s[1..], keep);
      if keep(s[0]) {
        var rest := Filter(s[1..], keep);
        assert ([s[0]] + rest)[1..] == rest;
      }
    }
  }

  /** A condition every element meets keeps the whole sequence. */
  lemma {:induction false} FilterAll<T(!new)>(s: seq<T>, keep: T -> bool)
    requires forall i :: 0 <= i < |s| ==> keep(s[i])
    ensures Filter(s, keep) == s
  {
    if |s| > 0 {
      FilterAll(s[1..], keep);
      assert s == [s[0]] + s[1..];
    }
  }

  /** How often a value survives filtering depends only on how often it
      occurs, not on where: filtering commutes with reordering. */
  lemma {:induction false} FilterCount<T(!new)>(s: seq<T>, keep: T -> bool, x: T)
    ensures multiset(Filter(s, keep))[x] == if keep(x) then multiset(s)[x] else 0
  {
    if |s| > 0 {
      FilterCount(s[1..], keep, x);
      assert s == [s[0]] + s[1..];
      if keep(s[0]) {
        assert multiset(Filter(s, keep)) == multiset{s[0]} + multiset(Filter(s[1..], keep));
      }
    }
  }

  lemma FilterPermutation<T(!new)>(s: seq<T>, u: seq<T>, keep: T -> bool)
    requires multiset(s) == multiset(u)
    ensures multiset(Filter(s, keep)) == multiset(Filter(u, keep))
  {
    forall x
      ensures multiset(Filter(s, keep))[x] == multiset(Filter(u, keep))[x]
    {
      FilterCount(s, keep, x);
      FilterCount(u, keep, x);
    }
  }
}

=== FILE: sql.dfy ===
/** The query-set helpers every tenant-scoped model shares: scoping by the
    object's tenant, natural ordering on one text column, and the compiler
    that turns every `ORDER BY` term into a `NULLS FIRST` one. */
module Sql {
  import opened Wrappers
  import opened Seqs
  import opened Ordering
  import opened NaturalKeys
  import opened Tenancy

  /** A row of a tenant-scoped model: its key, its `tenant` foreign key and
      its text columns by name. A column missing from `columns` is NULL. */
  datatype Entity = Entity(id: nat, tenant: Option<TenantId>, columns: map<string, string>)

  // ---------------------------------------------------------------------
  // ObjectFilterQuerySet.filter_access

  /** `tenant__group__access_group__user=user | tenant__group__access_users=user`,
      or a superuser. */
  predicate MaySeeEntity(st: Store, e: Entity, p: Principal)
  {
    p.isSuperuser
    || (e.tenant.Some? && e.tenant.value in st.tenants && AdmitsTenant(st.groups, st.tenants[e.tenant.value], p))
  }

  function EntityFilterAccess(st: Store, qs: seq<Entity>, p: Principal): (r: seq<Entity>)
    ensures p.isSuperuser ==> r == qs
    ensures forall e :: e in r <==> e in qs && MaySeeEntity(st, e, p)
    ensures multiset(r) <= multiset(qs)
    ensures !p.isSuperuser && p.identity.Unresolvable? ==> r == []
  {
    if p.isSuperuser then qs
    else match p.identity
      case Unresolvable => []
      case Account(_, _) => Filter(qs, (e: Entity) => MaySeeEntity(st, e, p))
  }

  lemma EntityFilterAccessIdempotent(st: Store, qs: seq<Entity>, p: Principal)
    ensures EntityFilterAccess(st, EntityFilterAccess(st, qs, p), p) == EntityFilterAccess(st, qs, p)
  {
    if !p.isSuperuser && p.identity.Account? {
      FilterIdempotent(qs, (e: Entity) => MaySeeEntity(st, e, p));
    }
  }

  /** An object is visible exactly when its tenant is: the object scoping and
      the tenant scoping agree. */
  lemma EntityVisibleIffTenantVisible(st: Store, e: Entity, p: Principal)
    requires e.tenant.Some? && e.tenant.value in st.tenants
    ensures var t := st.tenants[e.tenant.value];
            e in EntityFilterAccess(st, [e], p) <==> t in TenantFilterAccess(st.groups, [t], p)
  {
  }

  /** An object without a tenant is shown to superusers only. */
  lemma UntenantedEntityOnlyForSuperusers(st: Store, e: Entity, p: Principal)
    requires e.tenant.None?
    ensures e in EntityFilterAccess(st, [e], p) <==> p.isSuperuser
  {
  }

  // ---------------------------------------------------------------------
  // NaturalOrderByQuerySet.natural_order_by

  function ColumnValue(e: Entity, f: string): Option<string>
  {
    if f in e.columns then Some(e.columns[f]) else None
  }

  /** A plain column in `ORDER BY`. */
  function PlainKey(v: Option<string>): Key
  {
    match v
    case None => Null
    case Some(s) => Str(s)
  }

  /** The plain `ORDER BY` columns of a row for `fields`. */
  function PlainKeys(fields: seq<string>, e: Entity): (k: seq<Key>)
    ensures |k| == |fields|
  {
    if |fields| == 0 then [] else PlainKeys(fields[..|fields| - 1], e) + [PlainKey(ColumnValue(e, fields[|fields| - 1]))]
  }

  /** The `ORDER BY` tuple of a row: every field but the last as it is, then
      the three natural keys of the last. */
  function SortKey(fields: seq<string>, e: Entity): seq<Key>
  {
    if |fields| == 0 then []
    else PlainKeys(fields[..|fields| - 1], e) + NaturalColumns(ColumnValue(e, fields[|fields| - 1]))
  }

  /** `SortKey` as the key function a sort takes. */
  function RowKey(fields: seq<string>): Entity -> seq<Key>
  {
    (e: Entity) => SortKey(fields, e)
  }

  /** Why a natural ordering cannot be built: no field at all (`fields[-1]`
      raises `IndexError`), or a field the model does not have. */
  datatype OrderError = NoFields | UnknownField(name: string)

  function FirstUnknown(schema: set<string>, fields: seq<string>): (r: Option<string>)
    ensures r.None? <==> forall i :: 0 <= i < |fields| ==> fields[i] in schema
    ensures r.Some? ==> r.value in fields && r.value !in schema
  {
    if |fields| == 0 then None
    else if fields[0] !in schema then Some(fields[0])
    else
      var r := FirstUnknown(schema, fields[1..]);
      assert forall i :: 1 <= i < |fields| ==> fields[i] == fields[1..][i - 1];
      r
  }

  /** The rows of `rows` ordered by `fields`, the last of them naturally.
      Rows whose keys tie come back in some order the engine picks; here
      any sorted permutation is allowed. */
  function NaturalOrderBy(schema: set<string>, rows: seq<Entity>, fields: seq<string>): (r: Result<seq<Entity>, OrderError>)
    ensures r == Failure(NoFields) <==> |fields| == 0
    ensures r.Success? <==> |fields| > 0 && forall i :: 0 <= i < |fields| ==> fields[i] in schema
    ensures r.Failure? && r.error.UnknownField? ==> r.error.name in fields && r.error.name !in schema
    ensures r.Success? ==> multiset(r.value) == multiset(rows)
    ensures r.Success? ==> Sorted(EngineDefault, RowKey(fields), r.value)
  {
    if |fields| == 0 then Failure(NoFields)
    else match FirstUnknown(schema, fields)
      case Some(f) => Failure(UnknownField(f))
      case None => Success(Sort(EngineDefault, RowKey(fields), rows))
  }

  /** Rows that agree on the leading fields are ordered by the natural keys
      of the last field alone. */
  lemma OnlyLastFieldIsNatural(fields: seq<string>, x: Entity, y: Entity)
    requires |fields| > 0
    requires forall i :: 0 <= i < |fields| - 1 ==> ColumnValue(x, fields[i]) == ColumnValue(y, fields[i])
    ensures var last := fields[|fields| - 1];
            KeysLe(EngineDefault, SortKey(fields, x), SortKey(fields, y))
            <==> KeysLe(EngineDefault, NaturalColumns(ColumnValue(x, last)), NaturalColumns(ColumnValue(y, last)))
  {
    var n := |fields| - 1;
    var front := fields[..n];
    assert forall i :: 0 <= i < |front| ==> ColumnValue(x, front[i]) == ColumnValue(y, front[i]);
    SamePlainKeys(front, x, y);
    KeysLeAfterCommonPrefix(EngineDefault, PlainKeys(front, x), NaturalColumns(ColumnValue(x, fields[n])), NaturalColumns(ColumnValue(y, fields[n])));
  }

  lemma {:induction false} SamePlainKeys(fields: seq<string>, x: Entity, y: Entity)
    requires forall i :: 0 <= i < |fields| ==> ColumnValue(x, fields[i]) == ColumnValue(y, fields[i])
    ensures PlainKeys(fields, x) == PlainKeys(fields, y)
  {
    if |fields| > 0 {
      var front := fields[..|fields| - 1];
      assert forall i :: 0 <= i < |front| ==> front[i] == fields[i];
      SamePlainKeys(front, x, y);
    }
  }

  /** Numbered names: for a common non-numeric stem, the trailing number
      decides, as a number ("Rack 2" before "Rack 10"). */
  lemma NumberedNamesCompare(nulls: NullPlacement, p: string, m: nat, n: nat)
    requires |p| > 0 && !IsDigit(p[|p| - 1])
    requires m < Pow10(MaxDigits) && n < Pow10(MaxDigits)
    ensures KeysLe(nulls, NaturalColumns(Some(p + Render(m))), NaturalColumns(Some(p + Render(n)))) <==> m <= n
  {
    NumberedNameColumns(p, m);
    NumberedNameColumns(p, n);
    LastKeyDecides(nulls, IntOrNull(LeadingInt(p)), Str(p[LeadingRun(p)..]), m, n);
  }

  lemma NumberedNameColumns(p: string, n: nat)
    requires |p| > 0 && !IsDigit(p[|p| - 1])
    requires n < Pow10(MaxDigits)
    ensures NaturalColumns(Some(p + Render(n))) == [IntOrNull(LeadingInt(p)), Str(p[LeadingRun(p)..]), Int(n)]
  {
    KeyOfNumberedName(p, n);
  }

  lemma LastKeyDecides(nulls: NullPlacement, x: Key, y: Key, m: int, n: int)
    ensures KeysLe(nulls, [x, y, Int(m)], [x, y, Int(n)]) <==> m <= n
  {
    assert [x, y, Int(m)][1..] == [y, Int(m)] && [x, y, Int(n)][1..] == [y, Int(n)];
    assert [y, Int(m)][1..] == [Int(m)] && [y, Int(n)][1..] == [Int(n)];
    assert [Int(m)][1..] == [] && [Int(n)][1..] == [];
    assert KeysLe(nulls, [x, y, Int(m)], [x, y, Int(n)]) == KeysLe(nulls, [y, Int(m)], [y, Int(n)]);
    assert KeysLe(nulls, [y, Int(m)], [y, Int(n)]) == KeysLe(nulls, [Int(m)], [Int(n)]);
    assert KeyLe(nulls, Int(m), Int(n)) <==> m <= n;
    assert KeysLe(nulls, [Int(m)], [Int(n)]) <==> m <= n;
  }

  /** Names made only of digits (at most nine) compare by value, so "2"
      sorts before "10". */
  lemma NumbersCompare(nulls: NullPlacement, a: string, b: string)
    requires 0 < |a| <= MaxDigits && AllDigits(a)
    requires 0 < |b| <= MaxDigits && AllDigits(b)
    ensures KeysLe(nulls, NaturalColumns(Some(a)), NaturalColumns(Some(b))) <==> DecimalValue(a) <= DecimalValue(b)
  {
    ShortNumberKeys(a);
    ShortNumberKeys(b);
    AllDigitKeys(a);
    AllDigitKeys(b);
    var va, vb := DecimalValue(a), DecimalValue(b);
    assert NaturalColumns(Some(a)) == [Int(va), Str(""), Int(va)];
    assert NaturalColumns(Some(b)) == [Int(vb), Str(""), Int(vb)];
    if va == vb {
      KeysLeReflexive(nulls, [Int(va), Str(""), Int(va)]);
    }
  }

  /** Zero padding is invisible to natural ordering: "007" and "7" tie on
      all three keys. */
  lemma ZeroPaddingTies()
    ensures NaturalColumns(Some("007")) == NaturalColumns(Some("7"))
  {
    ShortNumberKeys("007");
    ShortNumberKeys("7");
    AllDigitKeys("007");
    AllDigitKeys("7");
    assert "007"[..2] == "00" && "00"[..1] == "0";
    assert "7"[..0] == "";
  }

  /** Natural ordering of one name column: the row whose key is strictly
      smaller comes first in every successful result. */
  lemma NaturalOrderPlaces(schema: set<string>, rows: seq<Entity>, f: string, i: nat, j: nat)
    requires NaturalOrderBy(schema, rows, [f]).Success?
    requires var r := NaturalOrderBy(schema, rows, [f]).value;
             i < |r| && j < |r|
             && !KeysLe(EngineDefault, NaturalColumns(ColumnValue(r[j], f)), NaturalColumns(ColumnValue(r[i], f)))
    ensures i < j
  {
    var r := NaturalOrderBy(schema, rows, [f]).value;
    assert SortKey([f], r[i]) == NaturalColumns(ColumnValue(r[i], f));
    assert SortKey([f], r[j]) == NaturalColumns(ColumnValue(r[j], f));
    SortedPairs(EngineDefault, RowKey([f]), r, i, j);
  }

  // ---------------------------------------------------------------------
  // Worked listings: numbered rack names and bare numbers

  lemma RackKeys()
    ensures NaturalColumns(Some("Rack")) == [Null, Str("Rack"), Null]
    ensures NaturalColumns(Some("Rack 2")) == [Null, Str("Rack "), Int(2)]
    ensures NaturalColumns(Some("Rack 10")) == [Null, Str("Rack "), Int(10)]
    ensures NaturalColumns(Some("Rack 1a")) == [Null, Str("Rack 1a"), Null]
  {
    assert RunStart("Rack", 0, 4) == 4;
    assert "Rack"[0..4] == "Rack";
    assert RunStart("Rack 1a", 0, 7) == 7;
    assert "Rack 1a"[0..7] == "Rack 1a";
    assert Render(2) == "2";
    assert Render(1) == "1";
    assert Render(10) == "10";
    assert "Rack " + "2" == "Rack 2";
    assert "Rack " + "10" == "Rack 10";
    KeyOfNumberedName("Rack ", 2);
    KeyOfNumberedName("Rack ", 10);
    assert "Rack "[0..] == "Rack ";
  }

  /** With one field, the sort key is the field's natural keys. */
  lemma SingleFieldKey(f: string, e: Entity)
    ensures SortKey([f], e) == NaturalColumns(ColumnValue(e, f))
  {
    assert [f][..0] == [];
    assert PlainKeys([], e) == [];
  }

  /** When no two rows tie, the listing is the one sorted permutation of the
      rows. */
  lemma ListingIsDetermined(schema: set<string>, rows: seq<Entity>, fields: seq<string>, want: seq<Entity>)
    requires NaturalOrderBy(schema, rows, fields).Success?
    requires multiset(want) == multiset(rows)
    requires Sorted(EngineDefault, RowKey(fields), want)
    requires KeysDistinct(RowKey(fields), want)
    ensures NaturalOrderBy(schema, rows, fields) == Success(want)
  {
    var got := NaturalOrderBy(schema, rows, fields).value;
    SortedUnique(EngineDefault, RowKey(fields), want, got);
  }

  /** The natural keys of the `f` values of `a`, `b`, `c` and `d` ascend
      and differ pairwise. */
  predicate AscendFour(f: string, a: Entity, b: Entity, c: Entity, d: Entity)
  {
    var ka, kb, kc, kd := NaturalColumns(ColumnValue(a, f)), NaturalColumns(ColumnValue(b, f)),
                          NaturalColumns(ColumnValue(c, f)), NaturalColumns(ColumnValue(d, f));
    && KeysLe(EngineDefault, ka, kb) && KeysLe(EngineDefault, kb, kc) && KeysLe(EngineDefault, kc, kd)
    && ka != kb && ka != kc && ka != kd && kb != kc && kb != kd && kc != kd
  }

  predicate AscendThree(f: string, a: Entity, b: Entity, c: Entity)
  {
    var ka, kb, kc := NaturalColumns(ColumnValue(a, f)), NaturalColumns(ColumnValue(b, f)),
                      NaturalColumns(ColumnValue(c, f));
    && KeysLe(EngineDefault, ka, kb) && KeysLe(EngineDefault, kb, kc)
    && ka != kb && ka != kc && kb != kc
  }

  /** A listing of four rows whose `f` values have ascending, pairwise
      different natural keys comes back in exactly that order. */
  lemma FourRowListing(f: string, rows: seq<Entity>, a: Entity, b: Entity, c: Entity, d: Entity)
    requires multiset(rows) == multiset([a, b, c, d])
    requires AscendFour(f, a, b, c, d)
    ensures NaturalOrderBy({f}, rows, [f]) == Success([a, b, c, d])
  {
    FourRowsSorted(f, a, b, c, d);
    ListingIsDetermined({f}, rows, [f], [a, b, c, d]);
  }

  lemma FourRowsSorted(f: string, a: Entity, b: Entity, c: Entity, d: Entity)
    requires AscendFour(f, a, b, c, d)
    ensures Sorted(EngineDefault, RowKey([f]), [a, b, c, d]) && KeysDistinct(RowKey([f]), [a, b, c, d])
  {
    SingleFieldKey(f, a);
    SingleFieldKey(f, b);
    SingleFieldKey(f, c);
    SingleFieldKey(f, d);
    SortedFour(EngineDefault, RowKey([f]), a, b, c, d);
  }

  lemma ThreeRowListing(f: string, rows: seq<Entity>, a: Entity, b: Entity, c: Entity)
    requires multiset(rows) == multiset([a, b, c])
    requires AscendThree(f, a, b, c)
    ensures NaturalOrderBy({f}, rows, [f]) == Success([a, b, c])
  {
    ThreeRowsSorted(f, a, b, c);
    ListingIsDetermined({f}, rows, [f], [a, b, c]);
  }

  lemma ThreeRowsSorted(f: string, a: Entity, b: Entity, c: Entity)
    requires AscendThree(f, a, b, c)
    ensures Sorted(EngineDefault, RowKey([f]), [a, b, c]) && KeysDistinct(RowKey([f]), [a, b, c])
  {
    SingleFieldKey(f, a);
    SingleFieldKey(f, b);
    SingleFieldKey(f, c);
    SortedThree(EngineDefault, RowKey([f]), a, b, c);
  }

  /** The natural keys of "Rack", "Rack 2", "Rack 10" and "Rack 1a" ascend
      in that order and differ pairwise. */
  lemma RackKeysAscend()
    ensures KeysLe(EngineDefault, NaturalColumns(Some("Rack")), NaturalColumns(Some("Rack 2")))
    ensures KeysLe(EngineDefault, NaturalColumns(Some("Rack 2")), NaturalColumns(Some("Rack 10")))
    ensures KeysLe(EngineDefault, NaturalColumns(Some("Rack 10")), NaturalColumns(Some("Rack 1a")))
    ensures NaturalColumns(Some("Rack")) != NaturalColumns(Some("Rack 2"))
    ensures NaturalColumns(Some("Rack")) != NaturalColumns(Some("Rack 10"))
    ensures NaturalColumns(Some("Rack")) != NaturalColumns(Some("Rack 1a"))
    ensures NaturalColumns(Some("Rack 2")) != NaturalColumns(Some("Rack 10"))
    ensures NaturalColumns(Some("Rack 2")) != NaturalColumns(Some("Rack 1a"))
    ensures NaturalColumns(Some("Rack 10")) != NaturalColumns(Some("Rack 1a"))
  {
    RackKeys();
    StrLePrefix("Rack", " ");
    assert "Rack" + " " == "Rack ";
    StrLePrefix("Rack ", "1a");
    assert "Rack " + "1a" == "Rack 1a";
  }

  /** Rows named "Rack", "Rack 2", "Rack 10" and "Rack 1a" have ascending,
      pairwise different natural keys in that order. */
  lemma RackRowsAscend(a: Entity, b: Entity, c: Entity, d: Entity)
    requires ColumnValue(a, "name") == Some("Rack 2") && ColumnValue(b, "name") == Some("Rack 10")
    requires ColumnValue(c, "name") == Some("Rack 1a") && ColumnValue(d, "name") == Some("Rack")
    ensures AscendFour("name", d, a, b, c)
  {
    RackKeysAscend();
  }

  /** A listing of "Rack 2", "Rack 10", "Rack 1a" and "Rack" orders as
      "Rack", "Rack 2", "Rack 10", "Rack 1a": "1a" is not a trailing number,
      so "Rack 1a" is compared by its middle key "Rack 1a", which follows
      "Rack ". */
  lemma RackExample(a: Entity, b: Entity, c: Entity, d: Entity)
    requires ColumnValue(a, "name") == Some("Rack 2") && ColumnValue(b, "name") == Some("Rack 10")
    requires ColumnValue(c, "name") == Some("Rack 1a") && ColumnValue(d, "name") == Some("Rack")
    ensures NaturalOrderBy({"name"}, [a, b, c, d], ["name"]) == Success([d, a, b, c])
  {
    RackRowsAscend(a, b, c, d);
    assert multiset([a, b, c, d]) == multiset([d, a, b, c]);
    FourRowListing("name", [a, b, c, d], d, a, b, c);
  }

  /** The natural keys of "1", "2" and "10" ascend in that order and differ. */
  lemma NumberKeysAscend()
    ensures KeysLe(EngineDefault, NaturalColumns(Some("1")), NaturalColumns(Some("2")))
    ensures KeysLe(EngineDefault, NaturalColumns(Some("2")), NaturalColumns(Some("10")))
    ensures NaturalColumns(Some("1")) != NaturalColumns(Some("2"))
    ensures NaturalColumns(Some("1")) != NaturalColumns(Some("10"))
    ensures NaturalColumns(Some("2")) != NaturalColumns(Some("10"))
  {
    NumberKeys();
  }

  lemma NumberRowsAscend(a: Entity, b: Entity, c: Entity)
    requires ColumnValue(a, "name") == Some("10") && ColumnValue(b, "name") == Some("2")
    requires ColumnValue(c, "name") == Some("1")
    ensures AscendThree("name", c, b, a)
  {
    NumberKeysAscend();
  }

  /** Rows named "10", "2" and "1" order as "1", "2", "10". */
  lemma NumberExample(a: Entity, b: Entity, c: Entity)
    requires ColumnValue(a, "name") == Some("10") && ColumnValue(b, "name") == Some("2")
    requires ColumnValue(c, "name") == Some("1")
    ensures NaturalOrderBy({"name"}, [a, b, c], ["name"]) == Success([c, b, a])
  {
    NumberRowsAscend(a, b, c);
    assert multiset([a, b, c]) == multiset([c, b, a]);
    ThreeRowListing("name", [a, b, c], c, b, a);
  }

  lemma NumberKeys()
    ensures NaturalColumns(Some("1")) == [Int(1), Str(""), Int(1)]
    ensures NaturalColumns(Some("2")) == [Int(2), Str(""), Int(2)]
    ensures NaturalColumns(Some("10")) == [Int(10), Str(""), Int(10)]
  {
    assert NaturalColumns(Some("1")) == [Int(1), Str(""), Int(1)] by {
      ShortNumberKeys("1");
      AllDigitKeys("1");
    }
    assert NaturalColumns(Some("2")) == [Int(2), Str(""), Int(2)] by {
      ShortNumberKeys("2");
      AllDigitKeys("2");
    }
    assert NaturalColumns(Some("10")) == [Int(10), Str(""), Int(10)] by {
      ShortNumberKeys("10");
      AllDigitKeys("10");
      assert "10"[..1] == "1";
    }
  }

  lemma {:induction false} StrLePrefix(a: string, b: string)
    ensures StrLe(a, a + b)
  {
    if |a| > 0 {
      assert (a + b)[1..] == a[1..] + b;
      StrLePrefix(a[1..], b);
    }
  }

  // ---------------------------------------------------------------------
  // FilterNaturalOrderByQuerySet: scoping and natural ordering together

  /** Scoping an ordered listing keeps it ordered and keeps exactly the rows
      that ordering the scoped listing would give. */
  lemma ScopeAfterOrder(st: Store, schema: set<string>, rows: seq<Entity>, fields: seq<string>, p: Principal)
    requires NaturalOrderBy(schema, rows, fields).Success?
    ensures var scopedLater := EntityFilterAccess(st, NaturalOrderBy(schema, rows, fields).value, p);
            var scopedFirst := NaturalOrderBy(schema, EntityFilterAccess(st, rows, p), fields);
            && scopedFirst.Success?
            && Sorted(EngineDefault, RowKey(fields), scopedLater)
            && multiset(scopedLater) == multiset(scopedFirst.value)
  {
    var ordered := NaturalOrderBy(schema, rows, fields).value;
    if !p.isSuperuser && p.identity.Account? {
      var keep := (e: Entity) => MaySeeEntity(st, e, p);
      FilterKeepsSorted(EngineDefault, RowKey(fields), ordered, keep);
      FilterPermutation(ordered, rows, keep);
    }
  }

  /** When no two rows share a sort key, the two ways round give the same
      listing. */
  lemma ScopeAndOrderCommute(st: Store, schema: set<string>, rows: seq<Entity>, fields: seq<string>, p: Principal)
    requires NaturalOrderBy(schema, rows, fields).Success?
    requires KeysDistinct(RowKey(fields), rows)
    ensures EntityFilterAccess(st, NaturalOrderBy(schema, rows, fields).value, p)
            == NaturalOrderBy(schema, EntityFilterAccess(st, rows, p), fields).value
  {
    var scopedLater := EntityFilterAccess(st, NaturalOrderBy(schema, rows, fields).value, p);
    var scopedFirst := NaturalOrderBy(schema, EntityFilterAccess(st, rows, p), fields).value;
    ScopeAfterOrder(st, schema, rows, fields, p);
    assert forall x :: x in scopedLater ==> x in rows by {
      forall x | x in scopedLater
        ensures x in rows
      {
        assert x in multiset(NaturalOrderBy(schema, rows, fields).value);
      }
    }
    KeysDistinctSubset(RowKey(fields), rows, scopedLater);
    SortedUnique(EngineDefault, RowKey(fields), scopedLater, scopedFirst);
  }

  // ---------------------------------------------------------------------
  // NullsFirstSQLCompiler, NullsFirstQuery, NullsFirstQuerySet

  /** One `ORDER BY` term as the compiler hands it on: the expression, its
      SQL text, its parameters and whether it names a select alias. */
  datatype OrderTerm = OrderTerm(expr: string, sql: string, params: seq<string>, isRef: bool)

  const NullsFirstClause: string := " NULLS FIRST"
  const NullsLastClause: string := " NULLS LAST"
  const DescendingClause: string := " DESC"

  predicate EndsWith(s: string, suffix: string)
  {
    |suffix| <= |s| && s[|s| - |suffix|..] == suffix
  }

  /** Where PostgreSQL puts NULLs for one `ORDER BY` term: an explicit
      `NULLS` clause decides; otherwise NULL counts as larger than every
      value, so it comes last ascending and first descending. */
  function PlacementOf(sql: string): NullPlacement
  {
    if EndsWith(sql, NullsFirstClause) then NullsFirst
    else if EndsWith(sql, NullsLastClause) then NullsLast
    else if EndsWith(sql, DescendingClause) then NullsFirst
    else NullsLast
  }

  /** The term text without a trailing `NULLS FIRST`. */
  function StripNullsFirst(sql: string): string
  {
    if EndsWith(sql, NullsFirstClause) then sql[..|sql| - |NullsFirstClause|] else sql
  }

  lemma AppendedClause(s: string, clause: string)
    ensures EndsWith(s + clause, clause)
    ensures (s + clause)[..|s|] == s
  {
    assert (s + clause)[|s|..] == clause;
  }

  /** `NullsFirstSQLCompiler.get_order_by`: every term the base compiler
      produces gets `NULLS FIRST`, and nothing else about it changes. */
  function NullsFirstOrderBy(terms: seq<OrderTerm>): (r: seq<OrderTerm>)
    ensures |r| == |terms|
    ensures forall i :: 0 <= i < |r| ==>
              r[i].expr == terms[i].expr && r[i].params == terms[i].params && r[i].isRef == terms[i].isRef
    ensures forall i :: 0 <= i < |r| ==> EndsWith(r[i].sql, NullsFirstClause)
    ensures forall i :: 0 <= i < |r| ==> PlacementOf(r[i].sql) == NullsFirst
    ensures forall i :: 0 <= i < |r| ==> StripNullsFirst(r[i].sql) == terms[i].sql
  {
    if |terms| == 0 then terms
    else
      var r := seq(|terms|, i requires 0 <= i < |terms| => terms[i].(sql := terms[i].sql + NullsFirstClause));
      assert forall i :: 0 <= i < |r| ==> EndsWith(r[i].sql, NullsFirstClause) && r[i].sql[..|terms[i].sql|] == terms[i].sql by {
        forall i | 0 <= i < |r|
          ensures EndsWith(r[i].sql, NullsFirstClause) && r[i].sql[..|terms[i].sql|] == terms[i].sql
        {
          AppendedClause(terms[i].sql, NullsFirstClause);
        }
      }
      r
  }

  /** The query object behind a query set. */
  datatype Query = PlainQuery | NullsFirstQuery

  /** `NullsFirstQuerySet.__init__`: a query handed in (as when a query set
      is cloned) is kept, otherwise a fresh `NullsFirstQuery` is made. */
  function NullsFirstQuerySetQuery(query: Option<Query>): (q: Query)
    ensures query.Some? ==> q == query.value
    ensures query.None? ==> q.NullsFirstQuery?
  {
    match query
    case Some(given) => given
    case None => NullsFirstQuery
  }

  /** The `ORDER BY` terms a query's compiler emits. */
  function CompiledOrderBy(q: Query, terms: seq<OrderTerm>): (r: seq<OrderTerm>)
    ensures |r| == |terms|
    ensures q.NullsFirstQuery? ==> r == NullsFirstOrderBy(terms)
    ensures q.NullsFirstQuery? ==> forall i :: 0 <= i < |r| ==> PlacementOf(r[i].sql) == NullsFirst
    ensures q.PlainQuery? ==> r == terms
  {
    match q
    case NullsFirstQuery => NullsFirstOrderBy(terms)
    case PlainQuery => terms
  }

  /** A new `NullsFirstQuerySet`, and a clone of it (which is handed the
      original's query), compile every term to `NULLS FIRST`. */
  lemma NullsFirstQuerySetSortsNullsFirst(terms: seq<OrderTerm>)
    ensures var made := NullsFirstQuerySetQuery(None);
            var clone := NullsFirstQuerySetQuery(Some(made));
            && CompiledOrderBy(made, terms) == NullsFirstOrderBy(terms)
            && CompiledOrderBy(clone, terms) == NullsFirstOrderBy(terms)
  {
  }

  /** What the `NULLS FIRST` clause does to a listing: a row whose first key
      is NULL precedes every row whose first key is not. */
  lemma NullsFirstPutsNullRowsFirst<T>(key: T -> seq<Key>, s: seq<T>, i: nat, j: nat)
    requires Sorted(NullsFirst, key, s) && i < |s| && j < |s|
    requires |key(s[i])| > 0 && key(s[i])[0] == Null
    requires |key(s[j])| > 0 && key(s[j])[0] != Null
    ensures i < j
  {
    SortedPairs(NullsFirst, key, s, i, j);
  }

  /** Without it the engine does the opposite. */
  lemma DefaultPutsNullRowsLast<T>(key: T -> seq<Key>, s: seq<T>, i: nat, j: nat)
    requires Sorted(EngineDefault, key, s) && i < |s| && j < |s|
    requires |key(s[i])| > 0 && key(s[i])[0] == Null
    requires |key(s[j])| > 0 && key(s[j])[0] != Null
    ensures j < i
  {
    SortedPairs(EngineDefault, key, s, j, i);
  }

  /** A database connection, known by its alias. */
  datatype Connection = Connection(alias: string)

  /** A compiler for a query, bound to a connection (if any) and an alias. */
  datatype Compiler = Compiler(query: Query, connection: Option<Connection>, using: Option<string>)

  /** `ValueError` when neither an alias nor a connection is given; looking
      up an unknown alias fails as well. */
  datatype CompilerError = NeedUsingOrConnection | ConnectionDoesNotExist(alias: string)

  /** `NullsFirstQuery.get_compiler`. A non-empty alias selects the
      connection registered under it and overrides any connection passed;
      an empty alias counts as no alias but does not raise. */
  function GetCompiler(q: Query, using: Option<string>, connection: Option<Connection>,
                       connections: map<string, Connection>): (r: Result<Compiler, CompilerError>)
    ensures r == Failure(NeedUsingOrConnection) <==> using.None? && connection.None?
    ensures (r.Failure? && r.error.ConnectionDoesNotExist?) <==> using.Some? && using.value != "" && using.value !in connections
    ensures r.Success? ==> r.value.query == q && r.value.using == using
    ensures r.Success? && using.Some? && using.value != "" ==> r.value.connection == Some(connections[using.value])
    ensures r.Success? && (using.None? || using.value == "") ==> r.value.connection == connection
  {
    if using.None? && connection.None? then Failure(NeedUsingOrConnection)
    else if using.Some? && using.value != "" then
      if using.value in connections then Success(Compiler(q, Some(connections[using.value]), using))
      else Failure(ConnectionDoesNotExist(using.value))
    else Success(Compiler(q, connection, using))
  }

  /** With a known alias the connection argument is irrelevant. */
  lemma AliasOverridesConnection(q: Query, alias: string, c1: Option<Connection>, c2: Option<Connection>,
                                 connections: map<string, Connection>)
    requires alias != "" && alias in connections
    ensures GetCompiler(q, Some(alias), c1, connections) == GetCompiler(q, Some(alias), c2, connections)
  {
  }

  /** An empty alias with no connection yields a compiler bound to nothing. */
  lemma EmptyAliasGivesNoConnection(q: Query, connections: map<string, Connection>)
    ensures GetCompiler(q, Some(""), None, connections) == Success(Compiler(q, None, Some("")))
  {
  }
}

=== FILE: tenancy.dfy ===
/** Tenant groups, tenants and the access scoping that decides which of them
    a user may see. A tenant group names the auth groups and the users it
    admits; a tenant is visible through its group. Superusers see
    everything; a user the database cannot resolve sees nothing. */
module Tenancy {
  import opened Wrappers
  import opened Seqs
  import opened Ordering

  type UserId = nat
  /** An authentication group (not a tenant group). */
  type AuthGroupId = nat
  type TenantGroupId = nat
  type TenantId = nat

  /** Who a request's user is as far as a database lookup is concerned.
      `Unresolvable` is a user object that cannot be turned into a user key
      (the anonymous user): filtering on it raises `TypeError`. */
  datatype Identity = Account(id: UserId, authGroups: set<AuthGroupId>) | Unresolvable

  datatype Principal = Principal(isSuperuser: bool, identity: Identity)

  /** The user of a request nobody has logged in to. */
  const Anonymous: Principal := Principal(false, Unresolvable)

  /** Column limits of the two tables. `SlugField` defaults to 50. */
  const GroupNameMax: nat := 50
  const TenantNameMax: nat := 30
  const SlugMax: nat := 50
  const DescriptionMax: nat := 100

  datatype TenantGroup = TenantGroup(
    id: TenantGroupId,
    name: string,
    slug: string,
    accessGroups: set<AuthGroupId>,
    accessUsers: set<UserId>)

  datatype Tenant = Tenant(
    id: TenantId,
    name: string,
    slug: string,
    group: Option<TenantGroupId>,
    description: string,
    comments: string)

  /** The two tables, keyed by primary key, and the next value of each
      table's key sequence. */
  datatype Store = Store(
    groups: map<TenantGroupId, TenantGroup>,
    tenants: map<TenantId, Tenant>,
    nextGroup: nat,
    nextTenant: nat)

  // ---------------------------------------------------------------------
  // Visibility

  /** `Q(access_group__user=user) | Q(access_users=user)`: the user is listed
      directly or belongs to one of the listed auth groups. */
  predicate Admits(g: TenantGroup, p: Principal)
  {
    match p.identity
    case Unresolvable => false
    case Account(u, ags) => u in g.accessUsers || ags * g.accessGroups != {}
  }

  /** The same test reached through a tenant's group; a tenant without a
      group (or whose group row is gone) matches no join and is hidden. */
  predicate AdmitsTenant(groups: map<TenantGroupId, TenantGroup>, t: Tenant, p: Principal)
  {
    t.group.Some? && t.group.value in groups && Admits(groups[t.group.value], p)
  }

  predicate MaySeeGroup(g: TenantGroup, p: Principal)
  {
    p.isSuperuser || Admits(g, p)
  }

  predicate MaySeeTenant(groups: map<TenantGroupId, TenantGroup>, t: Tenant, p: Principal)
  {
    p.isSuperuser || AdmitsTenant(groups, t, p)
  }

  /** `TenantGroupQuerySet.filter_access`: a superuser gets the query set
      back untouched; anybody else gets the rows that admit them, and
      nothing at all when the lookup raises `TypeError`. */
  function TenantGroupFilterAccess(qs: seq<TenantGroup>, p: Principal): (r: seq<TenantGroup>)
    ensures p.isSuperuser ==> r == qs
    ensures forall g :: g in r <==> g in qs && MaySeeGroup(g, p)
    ensures multiset(r) <= multiset(qs)
    ensures !p.isSuperuser && p.identity.Unresolvable? ==> r == []
  {
    if p.isSuperuser then qs
    else match p.identity
      case Unresolvable => []
      case Account(_, _) => Filter(qs, g => Admits(g, p))
  }

  /** `TenantQuerySet.filter_access`, the same scoping through each tenant's
      group. */
  function TenantFilterAccess(groups: map<TenantGroupId, TenantGroup>, qs: seq<Tenant>, p: Principal): (r: seq<Tenant>)
    ensures p.isSuperuser ==> r == qs
    ensures forall t :: t in r <==> t in qs && MaySeeTenant(groups, t, p)
    ensures multiset(r) <= multiset(qs)
    ensures !p.isSuperuser && p.identity.Unresolvable? ==> r == []
  {
    if p.isSuperuser then qs
    else match p.identity
      case Unresolvable => []
      case Account(_, _) => Filter(qs, t => AdmitsTenant(groups, t, p))
  }

  /** Scoping a scoped query set again changes nothing. */
  lemma TenantGroupFilterAccessIdempotent(qs: seq<TenantGroup>, p: Principal)
    ensures TenantGroupFilterAccess(TenantGroupFilterAccess(qs, p), p) == TenantGroupFilterAccess(qs, p)
  {
    if !p.isSuperuser && p.identity.Account? {
      FilterIdempotent(qs, g => Admits(g, p));
    }
  }

  lemma TenantFilterAccessIdempotent(groups: map<TenantGroupId, TenantGroup>, qs: seq<Tenant>, p: Principal)
    ensures TenantFilterAccess(groups, TenantFilterAccess(groups, qs, p), p) == TenantFilterAccess(groups, qs, p)
  {
    if !p.isSuperuser && p.identity.Account? {
      FilterIdempotent(qs, t => AdmitsTenant(groups, t, p));
    }
  }

  /** A user sees a tenant exactly when they see the tenant's group: the two
      filters agree. */
  lemma TenantVisibleThroughGroup(st: Store, t: Tenant, p: Principal)
    requires t in st.tenants.Values && t.group.Some? && t.group.value in st.groups
    ensures var gs := TenantGroupFilterAccess([st.groups[t.group.value]], p);
            t in TenantFilterAccess(st.groups, [t], p) <==> st.groups[t.group.value] in gs
  {
  }

  /** Listing a user among a group's users, or giving them one of its auth
      groups, never hides anything they could see before. */
  lemma GrantingAccessOnlyWidens(groups: map<TenantGroupId, TenantGroup>, gid: TenantGroupId,
                                 users: set<UserId>, ags: set<AuthGroupId>, qs: seq<Tenant>, p: Principal)
    requires gid in groups
    ensures var g := groups[gid];
            var wider := groups[gid := g.(accessUsers := g.accessUsers + users, accessGroups := g.accessGroups + ags)];
            forall t :: t in TenantFilterAccess(groups, qs, p) ==> t in TenantFilterAccess(wider, qs, p)
  {
  }

  // ---------------------------------------------------------------------
  // Table constraints

  /** The column a failed write is about. */
  datatype Column = NameColumn | SlugColumn | DescriptionColumn | GroupColumn

  /** A rejected write: a value longer than its `varchar` column (`DataError`),
      a duplicate in a unique column or a dangling foreign key
      (`IntegrityError`). */
  datatype WriteError = TooLong(column: Column) | Duplicate(column: Column) | MissingReference(column: Column)

  /** A new row and the primary key it was stored under. */
  datatype Inserted<R> = Inserted(store: Store, id: nat, row: R)

  predicate GroupNameTaken(st: Store, name: string)
  {
    exists k :: k in st.groups && st.groups[k].name == name
  }

  predicate GroupSlugTaken(st: Store, slug: string)
  {
    exists k :: k in st.groups && st.groups[k].slug == slug
  }

  predicate TenantNameTaken(st: Store, name: string)
  {
    exists k :: k in st.tenants && st.tenants[k].name == name
  }

  predicate TenantSlugTaken(st: Store, slug: string)
  {
    exists k :: k in st.tenants && st.tenants[k].slug == slug
  }

  /** What the tenant group table enforces: rows stored under their own
      keys, keys drawn from the table's sequence, lengths within the columns,
      unique names and slugs. */
  predicate GroupsValid(groups: map<TenantGroupId, TenantGroup>, next: nat)
  {
    && (forall k :: k in groups ==> groups[k].id == k && k < next)
    && (forall k :: k in groups ==> |groups[k].name| <= GroupNameMax && |groups[k].slug| <= SlugMax)
    && (forall a, b :: a in groups && b in groups && groups[a].name == groups[b].name ==> a == b)
    && (forall a, b :: a in groups && b in groups && groups[a].slug == groups[b].slug ==> a == b)
  }

  /** The same for the tenant table. */
  predicate TenantsValid(tenants: map<TenantId, Tenant>, next: nat)
  {
    && (forall k :: k in tenants ==> tenants[k].id == k && k < next)
    && (forall k :: k in tenants ==>
          |tenants[k].name| <= TenantNameMax && |tenants[k].slug| <= SlugMax
          && |tenants[k].description| <= DescriptionMax)
    && (forall a, b :: a in tenants && b in tenants && tenants[a].name == tenants[b].name ==> a == b)
    && (forall a, b :: a in tenants && b in tenants && tenants[a].slug == tenants[b].slug ==> a == b)
  }

  /** The foreign key: every tenant's group is a stored tenant group. */
  predicate GroupsExist(st: Store)
  {
    forall k :: k in st.tenants && st.tenants[k].group.Some? ==> st.tenants[k].group.value in st.groups
  }

  predicate Valid(st: Store)
  {
    GroupsValid(st.groups, st.nextGroup) && TenantsValid(st.tenants, st.nextTenant) && GroupsExist(st)
  }

  /** Saving a new tenant group. */
  function AddTenantGroup(st: Store, name: string, slug: string, accessGroups: set<AuthGroupId>,
                          accessUsers: set<UserId>): (r: Result<Inserted<TenantGroup>, WriteError>)
    ensures r.Success? <==>
              |name| <= GroupNameMax && |slug| <= SlugMax
              && !GroupNameTaken(st, name) && !GroupSlugTaken(st, slug)
    ensures r.Failure? ==> r.error in {TooLong(NameColumn), TooLong(SlugColumn), Duplicate(NameColumn), Duplicate(SlugColumn)}
    ensures r == Failure(TooLong(NameColumn)) ==> |name| > GroupNameMax
    ensures r == Failure(TooLong(SlugColumn)) ==> |slug| > SlugMax
    ensures r == Failure(Duplicate(NameColumn)) ==> GroupNameTaken(st, name)
    ensures r == Failure(Duplicate(SlugColumn)) ==> GroupSlugTaken(st, slug)
    ensures r.Success? ==>
              && r.value.id == st.nextGroup
              && r.value.row == TenantGroup(r.value.id, name, slug, accessGroups, accessUsers)
              && r.value.store == st.(groups := st.groups[r.value.id := r.value.row], nextGroup := st.nextGroup + 1)
  {
    if |name| > GroupNameMax then Failure(TooLong(NameColumn))
    else if |slug| > SlugMax then Failure(TooLong(SlugColumn))
    else if GroupNameTaken(st, name) then Failure(Duplicate(NameColumn))
    else if GroupSlugTaken(st, slug) then Failure(Duplicate(SlugColumn))
    else
      var id := st.nextGroup;
      var g := TenantGroup(id, name, slug, accessGroups, accessUsers);
      Success(Inserted(st.(groups := st.groups[id := g], nextGroup := id + 1), id, g))
  }

  /** Saving a new tenant. The foreign key is deferred, so it is checked
      after the unique columns. */
  function AddTenant(st: Store, name: string, slug: string, group: Option<TenantGroupId>,
                     description: string, comments: string): (r: Result<Inserted<Tenant>, WriteError>)
    ensures r.Success? <==>
              |name| <= TenantNameMax && |slug| <= SlugMax && |description| <= DescriptionMax
              && !TenantNameTaken(st, name) && !TenantSlugTaken(st, slug)
              && (group.Some? ==> group.value in st.groups)
    ensures r.Failure? ==> r.error in {TooLong(NameColumn), TooLong(SlugColumn), TooLong(DescriptionColumn),
                                       Duplicate(NameColumn), Duplicate(SlugColumn), MissingReference(GroupColumn)}
    ensures r == Failure(TooLong(NameColumn)) ==> |name| > TenantNameMax
    ensures r == Failure(TooLong(SlugColumn)) ==> |slug| > SlugMax
    ensures r == Failure(TooLong(DescriptionColumn)) ==> |description| > DescriptionMax
    ensures r == Failure(Duplicate(NameColumn)) ==> TenantNameTaken(st, name)
    ensures r == Failure(Duplicate(SlugColumn)) ==> TenantSlugTaken(st, slug)
    ensures r == Failure(MissingReference(GroupColumn)) ==> group.Some? && group.value !in st.groups
    ensures r.Success? ==>
              && r.value.id == st.nextTenant
              && r.value.row == Tenant(r.value.id, name, slug, group, description, comments)
              && r.value.store == st.(tenants := st.tenants[r.value.id := r.value.row], nextTenant := st.nextTenant + 1)
  {
    if |name| > TenantNameMax then Failure(TooLong(NameColumn))
    else if |slug| > SlugMax then Failure(TooLong(SlugColumn))
    else if |description| > DescriptionMax then Failure(TooLong(DescriptionColumn))
    else if TenantNameTaken(st, name) then Failure(Duplicate(NameColumn))
    else if TenantSlugTaken(st, slug) then Failure(Duplicate(SlugColumn))
    else if group.Some? && group.value !in st.groups then Failure(MissingReference(GroupColumn))
    else
      var id := st.nextTenant;
      var t := Tenant(id, name, slug, group, description, comments);
      Success(Inserted(st.(tenants := st.tenants[id := t], nextTenant := id + 1), id, t))
  }

  lemma AddTenantGroupKeepsValid(st: Store, name: string, slug: string, accessGroups: set<AuthGroupId>,
                                 accessUsers: set<UserId>)
    requires Valid(st)
    ensures var r := AddTenantGroup(st, name, slug, accessGroups, accessUsers);
            r.Success? ==> Valid(r.value.store)
  {
  }

  lemma AddTenantKeepsValid(st: Store, name: string, slug: string, group: Option<TenantGroupId>,
                            description: string, comments: string)
    requires Valid(st)
    ensures var r := AddTenant(st, name, slug, group, description, comments);
            r.Success? ==> Valid(r.value.store)
  {
  }

  /** The tenant as `on_delete=SET_NULL` leaves it when group `gid` goes. */
  function Detach(t: Tenant, gid: TenantGroupId): Tenant
  {
    if t.group == Some(gid) then t.(group := None) else t
  }

  /** Deleting a tenant group: the row goes and its tenants lose their group
      but stay. */
  function DeleteTenantGroup(st: Store, gid: TenantGroupId): (r: Store)
    ensures gid !in r.groups
    ensures forall k :: k in r.groups <==> k in st.groups && k != gid
    ensures forall k :: k in r.groups ==> r.groups[k] == st.groups[k]
    ensures r.tenants.Keys == st.tenants.Keys
    ensures forall k :: k in st.tenants ==>
              r.tenants[k].group != Some(gid)
              && (st.tenants[k].group != Some(gid) ==> r.tenants[k] == st.tenants[k])
              && r.tenants[k].(group := st.tenants[k].group) == st.tenants[k]
    ensures forall k :: k in st.tenants && st.tenants[k].group == Some(gid) ==> r.tenants[k].group.None?
    ensures r.nextGroup == st.nextGroup && r.nextTenant == st.nextTenant
  {
    st.(groups := st.groups - {gid}, tenants := map k | k in st.tenants :: Detach(st.tenants[k], gid))
  }

  lemma DeleteTenantGroupKeepsValid(st: Store, gid: TenantGroupId)
    requires Valid(st)
    ensures Valid(DeleteTenantGroup(st, gid))
  {
    var r := DeleteTenantGroup(st, gid);
    TenantsValidIgnoresGroup(st.tenants, r.tenants, st.nextTenant);
  }

  /** The tenant table's own constraints do not look at the group column. */
  lemma TenantsValidIgnoresGroup(ts: map<TenantId, Tenant>, us: map<TenantId, Tenant>, next: nat)
    requires TenantsValid(ts, next)
    requires us.Keys == ts.Keys
    requires forall k :: k in ts ==> us[k].(group := ts[k].group) == ts[k]
    ensures TenantsValid(us, next)
  {
    forall k | k in us
      ensures us[k].name == ts[k].name && us[k].slug == ts[k].slug
      ensures us[k].id == ts[k].id && us[k].description == ts[k].description
    {
      assert us[k].(group := ts[k].group) == ts[k];
    }
  }

  /** Once its group is deleted a tenant is hidden from everybody but
      superusers, whatever access the group granted before. */
  lemma DeletedGroupHidesItsTenants(st: Store, gid: TenantGroupId, k: TenantId, p: Principal)
    requires k in st.tenants && st.tenants[k].group == Some(gid)
    ensures var r := DeleteTenantGroup(st, gid);
            r.tenants[k] in TenantFilterAccess(r.groups, [r.tenants[k]], p) <==> p.isSuperuser
  {
  }

  // ---------------------------------------------------------------------
  // Default ordering

  /** `TenantGroup.Meta.ordering = ['name']`. */
  function GroupOrderKey(g: TenantGroup): seq<Key>
  {
    [Str(g.name)]
  }

  /** `Tenant.Meta.ordering = ['group', 'name']`: ordering by a foreign key
      orders by the related model's own ordering, the group's name; tenants
      without a group join to NULL. */
  function TenantOrderKey(groups: map<TenantGroupId, TenantGroup>, t: Tenant): seq<Key>
  {
    var g := if t.group.Some? && t.group.value in groups then Str(groups[t.group.value].name) else Null;
    [g, Str(t.name)]
  }

  /** The order a tenant listing comes back in, stated without sort keys:
      by group name, tenants without a group after all others, then by
      tenant name. */
  predicate TenantBefore(groups: map<TenantGroupId, TenantGroup>, x: Tenant, y: Tenant)
  {
    var gx := if x.group.Some? && x.group.value in groups then Some(groups[x.group.value].name) else None;
    var gy := if y.group.Some? && y.group.value in groups then Some(groups[y.group.value].name) else None;
    if gx == gy then StrLe(x.name, y.name)
    else if gx.None? then false
    else if gy.None? then true
    else StrLe(gx.value, gy.value)
  }

  lemma TenantOrderKeyMeansTenantBefore(groups: map<TenantGroupId, TenantGroup>, x: Tenant, y: Tenant)
    ensures KeysLe(EngineDefault, TenantOrderKey(groups, x), TenantOrderKey(groups, y)) <==> TenantBefore(groups, x, y)
  {
    var kx, ky := TenantOrderKey(groups, x), TenantOrderKey(groups, y);
    assert kx[1..] == [Str(x.name)] && ky[1..] == [Str(y.name)];
    assert KeysLe(EngineDefault, [Str(x.name)], [Str(y.name)]) <==> StrLe(x.name, y.name) by {
      assert [Str(x.name)][1..] == [] && [Str(y.name)][1..] == [];
      StrLeReflexive(x.name);
    }
    if kx[0] == ky[0] {
      assert KeysLe(EngineDefault, kx, ky) == KeysLe(EngineDefault, kx[1..], ky[1..]);
    } else {
      assert KeysLe(EngineDefault, kx, ky) == KeyLe(EngineDefault, kx[0], ky[0]);
    }
  }

  function DefaultGroupOrder(qs: seq<TenantGroup>): (r: seq<TenantGroup>)
    ensures multiset(r) == multiset(qs)
    ensures forall i, j :: 0 <= i < j < |r| ==> StrLe(r[i].name, r[j].name)
  {
    var r := Sort(EngineDefault, GroupOrderKey, qs);
    forall i, j | 0 <= i < j < |r|
      ensures StrLe(r[i].name, r[j].name)
    {
      assert KeysLe(EngineDefault, GroupOrderKey(r[i]), GroupOrderKey(r[j]));
      if r[i].name == r[j].name {
        StrLeReflexive(r[i].name);
      }
    }
    r
  }

  function DefaultTenantOrder(groups: map<TenantGroupId, TenantGroup>, qs: seq<Tenant>): (r: seq<Tenant>)
    ensures multiset(r) == multiset(qs)
    ensures forall i, j :: 0 <= i < j < |r| ==> TenantBefore(groups, r[i], r[j])
  {
    var r := Sort(EngineDefault, t => TenantOrderKey(groups, t), qs);
    forall i, j | 0 <= i < j < |r|
      ensures TenantBefore(groups, r[i], r[j])
    {
      TenantOrderKeyMeansTenantBefore(groups, r[i], r[j]);
    }
    r
  }

  /** Group names are unique, so the default group listing is fully
      determined: any listing of the same rows sorted by name is this one. */
  lemma DefaultGroupOrderUnique(qs: seq<TenantGroup>, other: seq<TenantGroup>)
    requires forall i, j :: 0 <= i < |qs| && 0 <= j < |qs| && qs[i].name == qs[j].name ==> qs[i] == qs[j]
    requires multiset(other) == multiset(qs)
    requires forall i, j :: 0 <= i < j < |other| ==> StrLe(other[i].name, other[j].name)
    ensures other == DefaultGroupOrder(qs)
  {
    var r := DefaultGroupOrder(qs);
    assert Sorted(EngineDefault, GroupOrderKey, other) by {
      forall i, j | 0 <= i < j < |other|
        ensures KeysLe(EngineDefault, GroupOrderKey(other[i]), GroupOrderKey(other[j]))
      {
        assert StrLe(other[i].name, other[j].name);
      }
    }
    assert Sorted(EngineDefault, GroupOrderKey, r) by {
      forall i, j | 0 <= i < j < |r|
        ensures KeysLe(EngineDefault, GroupOrderKey(r[i]), GroupOrderKey(r[j]))
      {
        assert StrLe(r[i].name, r[j].name);
      }
    }
    assert KeysDistinct(GroupOrderKey, other) by {
      forall i, j | 0 <= i < |other| && 0 <= j < |other| && GroupOrderKey(other[i]) == GroupOrderKey(other[j])
        ensures other[i] == other[j]
      {
        assert other[i] in multiset(qs) && other[j] in multiset(qs);
        var a :| 0 <= a < |qs| && qs[a] == other[i];
        var b :| 0 <= b < |qs| && qs[b] == other[j];
        assert GroupOrderKey(other[i])[0] == GroupOrderKey(other[j])[0];
      }
    }
    SortedUnique(EngineDefault, GroupOrderKey, other, r);
  }

  // ---------------------------------------------------------------------
  // The managers' `filter_access` and the tenant page's lookup

  /** `TenantManager.filter_access` as written: it scopes the query set and
      then drops it, so the caller receives `None`. */
  function TenantManagerFilterAccessAsWritten(groups: map<TenantGroupId, TenantGroup>, rows: seq<Tenant>,
                                              p: Principal): (r: Option<seq<Tenant>>)
    ensures r.None?
  {
    var _ := TenantFilterAccess(groups, rows, p);
    None
  }

  /** `TenantGroupManager.filter_access` as written, the same omission. */
  function TenantGroupManagerFilterAccessAsWritten(rows: seq<TenantGroup>, p: Principal): (r: Option<seq<TenantGroup>>)
    ensures r.None?
  {
    var _ := TenantGroupFilterAccess(rows, p);
    None
  }

  /** `TenantManager.filter_access` returning the scoped query set. */
  function TenantManagerFilterAccess(groups: map<TenantGroupId, TenantGroup>, rows: seq<Tenant>,
                                     p: Principal): (r: Option<seq<Tenant>>)
    ensures r.Some?
    ensures forall t :: t in r.value <==> t in rows && MaySeeTenant(groups, t, p)
  {
    Some(TenantFilterAccess(groups, rows, p))
  }

  /** `TenantGroupManager.filter_access` returning the scoped query set. */
  function TenantGroupManagerFilterAccess(rows: seq<TenantGroup>, p: Principal): (r: Option<seq<TenantGroup>>)
    ensures r.Some?
    ensures forall g :: g in r.value <==> g in rows && MaySeeGroup(g, p)
  {
    Some(TenantGroupFilterAccess(rows, p))
  }

  /** Why `get_object_or_404` gives up: the argument is not a query set
      (`ValueError`), no row matches (`Http404`) or several do. */
  datatype LookupError = NotAQuerySet | NotFound | MultipleObjectsReturned

  /** `get_object_or_404(qs, slug=slug)`. */
  function GetTenantBySlug(qs: Option<seq<Tenant>>, slug: string): (r: Result<Tenant, LookupError>)
    ensures qs.None? <==> r == Failure(NotAQuerySet)
    ensures r.Success? ==> r.value in qs.value && r.value.slug == slug
    ensures qs.Some? && (forall t :: t in qs.value ==> t.slug != slug) ==> r == Failure(NotFound)
    ensures qs.Some? && |Filter(qs.value, (t: Tenant) => t.slug == slug)| == 1 ==>
              r == Success(Filter(qs.value, (t: Tenant) => t.slug == slug)[0])
    ensures qs.Some? && |Filter(qs.value, (t: Tenant) => t.slug == slug)| > 1 ==> r == Failure(MultipleObjectsReturned)
  {
    match qs
    case None => Failure(NotAQuerySet)
    case Some(rows) =>
      var hits := Filter(rows, (t: Tenant) => t.slug == slug);
      assert |hits| > 0 ==> hits[0] in hits && hits[0].slug == slug;
      if |hits| == 0 then Failure(NotFound)
      else if |hits| > 1 then Failure(MultipleObjectsReturned)
      else Success(hits[0])
  }

  /** The tenant page as written never finds a tenant, not even for a
      superuser looking up a tenant that exists. */
  lemma TenantPageAsWrittenFails(st: Store, rows: seq<Tenant>, p: Principal, slug: string)
    ensures GetTenantBySlug(TenantManagerFilterAccessAsWritten(st.groups, rows, p), slug) == Failure(NotAQuerySet)
  {
  }

  lemma TenantPageAsWrittenCounterexample()
    ensures var t := Tenant(1, "Acme", "acme", None, "", "");
            var p := Principal(true, Account(1, {}));
            && GetTenantBySlug(TenantManagerFilterAccessAsWritten(map[], [t], p), "acme").Failure?
            && GetTenantBySlug(TenantManagerFilterAccess(map[], [t], p), "acme") == Success(t)
  {
    var t := Tenant(1, "Acme", "acme", None, "", "");
    assert Filter([t], (x: Tenant) => x.slug == "acme") == [t] by {
      FilterAll([t], (x: Tenant) => x.slug == "acme");
    }
  }

  /** With the corrected manager the tenant page finds a tenant exactly when
      it exists and the user may see it. */
  lemma TenantPageFindsVisibleTenant(st: Store, rows: seq<Tenant>, p: Principal, t: Tenant)
    requires t in rows
    requires SlugsUnique(rows)
    ensures GetTenantBySlug(TenantManagerFilterAccess(st.groups, rows, p), t.slug) == Success(t)
            <==> MaySeeTenant(st.groups, t, p)
  {
    var qs := TenantFilterAccess(st.groups, rows, p);
    var hits := Filter(qs, (x: Tenant) => x.slug == t.slug);
    if MaySeeTenant(st.groups, t, p) {
      assert t in hits;
      assert forall x :: x in hits ==> x == t;
      OccursOnce(rows, t);
      SingleValue(hits, t);
    }
  }

  /** A sequence whose every element is `t`, that holds `t` and holds it
      at most once, is `[t]`. */
  lemma SingleValue(s: seq<Tenant>, t: Tenant)
    requires t in s && forall x :: x in s ==> x == t
    requires multiset(s)[t] <= 1
    ensures s == [t]
  {
    CountConstant(s, t);
    assert s[0] == t;
  }

  lemma {:induction false} CountConstant(s: seq<Tenant>, t: Tenant)
    requires forall x :: x in s ==> x == t
    ensures multiset(s)[t] == |s|
  {
    if |s| > 0 {
      assert s == [s[0]] + s[1..];
      assert forall x :: x in s[1..] ==> x in s;
      CountConstant(s[1..], t);
      assert s[0] in s;
      assert multiset(s) == multiset{s[0]} + multiset(s[1..]);
    }
  }

  /** No two rows of a listing share a slug, which the unique column
      guarantees for rows read from the table. */
  predicate SlugsUnique(rows: seq<Tenant>)
  {
    forall i, j :: 0 <= i < |rows| && 0 <= j < |rows| && rows[i].slug == rows[j].slug ==> i == j
  }

  lemma {:induction false} OccursOnce(rows: seq<Tenant>, t: Tenant)
    requires SlugsUnique(rows)
    ensures multiset(rows)[t] <= 1
  {
    if |rows| > 0 {
      assert rows == [rows[0]] + rows[1..];
      assert SlugsUnique(rows[1..]) by {
        forall i, j | 0 <= i < |rows[1..]| && 0 <= j < |rows[1..]| && rows[1..][i].slug == rows[1..][j].slug
          ensures i == j
        {
          assert rows[i + 1].slug == rows[j + 1].slug;
        }
      }
      OccursOnce(rows[1..], t);
      forall j | 0 <= j < |rows[1..]|
        ensures rows[1..][j] != rows[0]
      {
        assert rows[j + 1].slug == rows[0].slug ==> j + 1 == 0;
      }
    }
  }
}

=== FILE: wrappers.dfy ===
/** Failure-compatible wrappers used across the model: `Option` for nullable
    values and SQL NULL, `Result` for operations that raise. */
module Wrappers {

  datatype Option<+T> = None | Some(value: T)

  datatype Result<+R, +E> = Success(value: R) | Failure(error: E)
}
